=== FILE: README.md ===
# Bootstraper client reconciliation, modelled in Dafny

The bootstraper client runs on a freshly installed machine. It collects the
machine's drives (smartctl), memory modules and system identity (dmidecode) and
network interfaces (ip, ipmitool). It then reconciles them with the NetBox
record of the device and produces five batches:

- interface creates;
- interface updates;
- inventory-item creates;
- inventory-item updates;
- inventory-item deletes.

This project models the decision logic of `client/client.py` that turns the
observed facts and the fetched NetBox records into those batches. It proves
what the batches contain, each against a reference definition that does not
run the loops.

- `wrappers.dfy`: `Option`, `Result`, and the `KeyError` error outcome.
- `pydict.dfy` (`PyDict`): Python dicts as insertion-ordered association lists
  with distinct keys. `ToMap` is the lookup view, in which a later pair wins,
  as in a dict comprehension. The module defines assignment (`Put`), `pop`,
  comprehension (`FromPairs`) and value mapping.
- `netbox.dfy`, `facts.dfy`: the fetched NetBox records and the observed facts.
- `inventory.dfy` (`Inventory`): `update_fields`. It is one fold over the
  observed components. The fold threads the shared add list, update list and
  remove dict, as the Python code shares them between its two calls.
- `interfaces.dfy` (`Interfaces`): the interface loop of `update_netbox`. The
  loop overwrites fetched records in place, and later iterations see those
  edits through both lookup dicts. The model threads the record list through
  the fold. The by-name and by-MAC lookups hold positions in that list and
  never change.
- `smart.dfy` (`Smart`): `parse_smart` and the collecting loop of
  `get_smart_for_all_drives`.
- `dmi.dfy` (`Dmi`): `merge_keys` and `parse_dmi_info`.
- `reconcile.dfy` (`Reconcile`): `update_netbox` up to the batch calls,
  returned as a `Plan`, with the top-level properties.
- `client.dfy` (`Client`): the payload assembly of the script's top level.
- `scenarios.dfy` (`Scenarios`): small concrete runs.

Behaviours of the code worth knowing, which the model follows:

- **One inventory dict for both passes.** The fetched items are looked up by
  name whatever their kind tag. A memory module therefore matches an item that
  was filed as a drive, and the reverse (`Scenarios.CrossKindMatch`).
- **A shared name raises `KeyError`.** A drive key can equal a memory locator
  that NetBox already knows. The second `pop` of that name then raises
  `KeyError`, and the `except ValueError` does not catch it. The run is
  modelled as `Failure(KeyError(name))`: see `Reconcile.UpdateNetboxFails` and
  `Scenarios.SharedKeyCrashes`.
- **No memory device raises `KeyError`.** Without any memory device the
  payload has no `memory` key, and the memory pass raises `KeyError`
  (`Client.NoMemoryDeviceFails`).
- **Only the serial is compared.** A changed model or description alone never
  produces an update.
- **The serial can end up absent.** The placeholder serial `0123456789` is
  replaced by the baseboard serial, and that serial may be missing. No
  identity error is raised (`Dmi.ParsedSerial`,
  `Scenarios.PlaceholderWithoutBaseboard`).
- **Interface records are edited in place.** A record is appended to the
  update batch each time an observed interface resolves to it while it
  differs from what that interface writes, so a record can be appended more
  than once. Every entry carries the record's final values
  (`Interfaces.WalkUpdates`, `Reconcile.InterfaceUpdates`).
- **The MAC wins over the name.** An observed interface is matched by its
  upper-cased MAC first and by its name only when no record kept by the name
  index has that MAC; a record shadowed by a later namesake is reachable by
  neither (`Interfaces.CandidateOfFetched`,
  `Scenarios.RenamedInterfaceFoundByMac`).
- **Among records sharing a MAC, the later name wins.** The by-MAC index is
  built over `interfaces_dict.values()`, which lists names in the order they
  first occur in the fetched list, and a later pair overwrites an earlier
  one. When NetBox holds `eno1` and then a `bond0` with the same MAC, an
  observed `eno1` resolves to `bond0`, which is renamed to `eno1`; the
  original `eno1` record is left alone (`Interfaces.MacIndexComplete`,
  `Scenarios.SharedMacRenamesLaterName`).
- **A fetched item shadowed by a later namesake is never touched.**
  `inventory_dict` keeps the last fetched item of each name, so an earlier
  item with the same name is neither updated nor deleted
  (`Reconcile.ItemIndexSound`, `Scenarios.ShadowedItemNeverDeleted`).
- **Drives are keyed by HCTL**, the key each probe reports.

## Model

| member | source | states |
|---|---|---|
| PyDict.Put | client/client.py:107-113 | assigning a key keeps a dict a dict; the lookup view afterwards is the old one with the key bound to the new value |
| PyDict.PutKeys | client/client.py:107-113 | assigning to a present key keeps the key order; assigning to a new key puts it last |
| PyDict.Pop | client/client.py:152-156 | `pop` has no value exactly when the key is absent (the `KeyError` case); otherwise it returns the key's value and a dict whose lookup view is the old one without that key |
| PyDict.FromPairs | client/client.py:186-190 | a dict comprehension yields a dict whose lookup view is that of its pairs, the later pair winning |
| PyDict.FromPairsOrder | client/client.py:186 | a dict comprehension lists its keys in the order they first occur among its pairs |
| PyDict.PopEntries | client/client.py:152-156 | a successful `pop` removes exactly the entry of the popped key and leaves the other entries in their order |
| Inventory.Visit | client/client.py:135-168 | one iteration fails exactly when the key names a fetched item that was already popped; a matched key leaves the remove dict, and an unmatched one leaves it as it was |
| Inventory.UpdateFields | client/client.py:126-168 | a pass keeps the remove dict a dict; what it fails on, removes and appends is stated by the `UpdateFields…` lemmas below |
| Inventory.UpdateFieldsFails | client/client.py:126-168 | a pass fails exactly when some observed key names a fetched item no longer in the remove dict |
| Inventory.UpdateFieldsRemaining | client/client.py:152-156 | after a pass, the remove dict has lost exactly the observed keys that name a fetched item |
| Inventory.UpdateFieldsAppends | client/client.py:131-133 | a pass only appends to the shared add and update lists |
| Inventory.UpdateFieldsAddCounts | client/client.py:152-168 | per name, a pass appends one add payload when the name is observed and no fetched item has it, and none otherwise |
| Inventory.UpdateFieldsAddShapes | client/client.py:137-168 | each appended add payload carries the observed name, model, serial, the tags `autogen` and the kind, the description only when the component has one, and the device id |
| Inventory.UpdateFieldsUpdateCounts | client/client.py:152-164 | per name, a pass appends one update payload when a fetched item has the name and another serial, and none otherwise |
| Inventory.UpdateFieldsUpdateShapes | client/client.py:158-164 | each appended update payload names a fetched item with another serial, carries that item's id and no device |
| Interfaces.BuildLookup | client/client.py:185-187 | the by-name index files each position under that record's name; the by-MAC index, built from the by-name values, files positions under their record's MAC and reaches every record the by-name index holds |
| Interfaces.NameIndexKeeps | client/client.py:186 | the by-name index has a name exactly when a fetched record has it, and holds the kept record for it: the last fetched record with that name |
| Interfaces.MacIndexComplete | client/client.py:186-187 | the by-MAC index has a MAC exactly when a kept record carries it, and holds a kept record for it; among several kept records with that MAC it holds the one whose name first occurs latest in the fetched list |
| Interfaces.MacIndexTieBreak | client/client.py:186-187 | a kept record carrying a MAC never has a name that first occurs later than the name of the record the by-MAC index holds for that MAC |
| Interfaces.NameIndexSound | client/client.py:186 | a name in the by-name index leads to a fetched record with that name |
| Interfaces.MacIndexSound | client/client.py:187 | a MAC in the by-MAC index leads to a fetched record with that MAC |
| Interfaces.CandidateOfFetched | client/client.py:203-206 | the candidate is a kept record carrying the observed MAC when there is one, and among several such the one whose name first occurs latest; otherwise it is the kept record with the observed name, and there is none only when no fetched record has that name |
| Interfaces.Candidate | client/client.py:203-206 | the MAC lookup first, then the name lookup; its meaning in terms of the fetched records is `Interfaces.CandidateOfFetched` |
| Interfaces.Upper | client/client.py:195 | upper-cases each letter and keeps the length; applying it again changes nothing (`Interfaces.UpperIsCanonical`) |
| Interfaces.Step | client/client.py:193-223 | with no candidate, one create is appended and no record changes; with one, only that record changes, it takes the observed name and upper-cased MAC, and it is appended to the updates exactly when it differed |
| Interfaces.WalkInterfaces | client/client.py:193-223 | the loop removes no record, changes no record's id, only appends, and appends at most one entry per observed interface |
| Interfaces.WalkAdds | client/client.py:216-223 | the create list equals the reference list of creates for the observed interfaces without a candidate, unaffected by the in-place edits |
| Interfaces.CreatesAreUnmatched | client/client.py:216-223 | a payload is in the reference create list exactly when it is the `1000base-t` create of an observed interface without a candidate |
| Interfaces.LastHitFound | client/client.py:203-206 | the last observed interface resolving to a record exists exactly when some observed interface resolves to it |
| Interfaces.WalkFinalRecords | client/client.py:209-215 | after the loop each record holds the name and MAC of the last observed interface that resolved to it, and is unchanged if none did |
| Interfaces.WalkUpdatesAreCandidates | client/client.py:203-215 | every reference in the update list is the candidate of some observed interface |
| Interfaces.WalkUpdates | client/client.py:203-215 | the update list equals the reference list: the candidate of each observed interface whose candidate, as the earlier interfaces left it, differs from what this interface writes |
| Interfaces.WalkChangedIsUpdated | client/client.py:209-215 | every record the loop changed is in the part of the update list the loop appended |
| Interfaces.WalkInSyncIsNoOp | client/client.py:209-215 | when every observed interface already sits in its candidate record, the loop changes and emits nothing |
| Smart.ParseSmart | client/client.py:47-61 | parsing succeeds exactly when device, serial, capacity and power-on time are present; fields are copied and the model falls back from `model_name` to `scsi_model_name` to `Unknown` |
| Smart.CollectDrivesFails | client/client.py:64-72 | collecting fails exactly when an answered probe cannot be parsed |
| Smart.CollectDrivesResult | client/client.py:64-72 | each key maps to the parse of the last answered probe with that key; unanswered probes are dropped |
| Smart.CollectDrives | client/client.py:64-72 | the collected drives form a dict; when it fails and what it holds are `Smart.CollectDrivesFails` and `Smart.CollectDrivesResult` |
| Dmi.MergeKeys | client/client.py:80-83 | the destination gains exactly the listed source keys with their source values and keeps every other entry |
| Dmi.VisitSection | client/client.py:96-113 | one section keeps the memory entry a dict; its effect is stated over whole runs by the `VisitSections…` and `Parsed…` lemmas |
| Dmi.VisitSections | client/client.py:96-113 | the fold over the sections keeps the memory entry a dict; it fails exactly as `Dmi.VisitSectionsFails` states |
| Dmi.ResolveSerial | client/client.py:118-121 | the placeholder serial is replaced by the baseboard serial; the result is stated by `Dmi.ParsedSerial` |
| Dmi.ParseDmiInfo | client/client.py:115-116 | the `memory` entry, when present, is a non-empty dict |
| Dmi.VisitSectionsFails | client/client.py:96-113 | parsing fails exactly when a system or baseboard section lacks a serial, or a memory section lacks a size or a locator |
| Dmi.ParsedSerial | client/client.py:118-121 | the serial is the last system serial, unless that is `0123456789`, in which case it is the last baseboard serial, possibly absent |
| Dmi.ParsedSystemKeys | client/client.py:99-101 | the system keys are exactly those of `uuid`, `product_name` and `manufacturer` that a system section carries, each with the last such value |
| Dmi.ParsedMemory | client/client.py:104-113 | each locator maps to the record of its last memory section: the size, defaults of `Unknown`, and the description "size - speed" |
| Dmi.ParsedMemoryPresent | client/client.py:104-116 | the `memory` entry is absent exactly when no memory section is listed |
| Reconcile.ItemIndexSound | client/client.py:189-190 | the inventory dict has every fetched name and holds, under each name, the last fetched item with that name, and no other item |
| Reconcile.ReconcileItems | client/client.py:226-246 | the two item passes over one remove dict; a success leaves the remove dict a dict, and the `Item…` lemmas state the rest |
| Reconcile.UpdatedRecords | client/client.py:254 | the update batch sends, for each reference, the record in its final state; one entry per reference |
| Reconcile.UpdateNetbox | client/client.py:171-259 | `update_netbox` up to the batch calls; its failures and batches are stated by the `Reconcile` lemmas below |
| Reconcile.ItemPassesFail | client/client.py:226-246 | the two item passes fail exactly when there is no memory entry, or a name is both a drive key and a memory locator and a fetched item has it |
| Reconcile.UpdateNetboxFails | client/client.py:226-246 | a whole run fails under exactly the same condition; the interface loop never fails |
| Reconcile.RemainingAfterPasses | client/client.py:226-246 | after both passes the remove dict holds the fetched items whose name is neither a drive key nor a memory locator |
| Reconcile.ItemDeletes | client/client.py:226-259 | an item is in the delete batch exactly when it is a fetched item, filed under its name, whose name is neither a drive key nor a memory locator |
| Reconcile.ItemCounts | client/client.py:226-246 | per name, the item creates and updates over both passes count one per pass in which the name is new, respectively has another serial |
| Reconcile.ItemCreates | client/client.py:135-168 | each item create is the create payload of a drive or memory module that no fetched item is named after |
| Reconcile.ItemUpdates | client/client.py:152-164 | each item update is the update payload, with the fetched item's id, of a drive or memory module whose fetched namesake has another serial |
| Reconcile.NeverCreatedAndUpdated | client/client.py:152-168 | no name is both in the item create batch and in the item update batch |
| Reconcile.InterfaceUpdates | client/client.py:209-215 | the interface update batch references exactly the reference list, includes every record the loop changed, and each entry is a fetched record, with its id, carrying the name and upper-cased MAC of the last observed interface that resolved to it |
| Reconcile.InterfaceMacsUpperCase | client/client.py:195-223 | every MAC sent, in an interface create or an updated record, is upper case already |
| Reconcile.AllObservedDeletesNothing | client/client.py:226-259 | when every fetched item is named after a drive key or a memory locator, the remove dict ends empty and nothing is deleted |
| Reconcile.RerunItems | client/client.py:152-165 | with distinct drive and memory names whose fetched namesakes carry the same serials, the item passes succeed and create and update nothing |
| Reconcile.UpdateNetboxRerun | client/client.py:193-259 | on a machine NetBox already describes, interfaces included, a run sends no create and no update, and no delete when every fetched item is still observed |
| Client.NoMemoryDeviceFails | client/client.py:238-239 | without a memory section the run ends in `KeyError("memory")`; with one, the memory entry is present |
| Client.AssembleDeviceInfo | client/client.py:297-306 | the payload is a well-formed pair of dicts with the interfaces copied; its memory entry is stated by `Client.NoMemoryDeviceFails` |
| Scenarios.SharedKeyCrashes | client/client.py:152-156 | a drive and a memory module both named `A`, with an item `A` fetched, make the run fail with `KeyError("A")` |
| Scenarios.CrossKindMatch | client/client.py:189-190 | a memory module matches a fetched item tagged as a drive and yields an update, not a create or a delete |
| Scenarios.PlaceholderWithoutBaseboard | client/client.py:118-121 | a placeholder serial without a baseboard section yields no serial and no error |
| Scenarios.RenamedInterfaceFoundByMac | client/client.py:193-215 | a fetched `eth0` with MAC `AA:BB` and an observed `eno1` with `aa:bb` give one update renaming that record and no create |
| Scenarios.SharedMacPicksBond | client/client.py:186-187 | with `eno1` and then `bond0` fetched, both with MAC `AA:BB`, the by-MAC index resolves `AA:BB` to `bond0` |
| Scenarios.SharedMacRenamesLaterName | client/client.py:186-215 | with those records fetched and `eno1` observed with `aa:bb`, `bond0` is renamed to `eno1` and sent as the one update, with no create |
| Scenarios.ShadowedItemNeverDeleted | client/client.py:189-259 | with two fetched items named `A` and only memory `B` observed, the later `A` is in the delete batch and the earlier one is not |

## Left out

- Running the external commands: lsblk, smartctl, dmidecode, ip and ipmitool. Parsing their output with `jc` is also left out. Their results are inputs: `Smart.Probe`, `Dmi.Section` and `Facts.ObservedInterface`.
- The name filters of `get_drives` (`zd` devices, non-disks) and of `get_interfaces` (names starting with `en` or `eth`, plus `ipmi`). They shape those external outputs and are not decision logic.
- The thread pool in `get_smart_for_all_drives`. Only its effect is modelled: results arrive in drive order, and failed probes are dropped.
- The pynetbox client. The device lookup by serial, the filter calls and the batched create, update and delete calls are remote API calls. The device and the fetched lists are inputs, and the `Plan` is the output. A failed device lookup is not modelled.
- The webhook post, every `print`, and the Cloudflare worker.
- `Interfaces.Upper` maps only ASCII letters. Python's `str.upper` also maps non-ASCII letters, but MAC addresses are ASCII.
- Smart.ParseSmart reports a missing `device.name` under the key `device`, and a missing `user_capacity.bytes` under `user_capacity`. The source raises `KeyError` for the inner key. Only whether a run fails is modelled exactly, not which key it names.
- Smart.ParseSmart treats a JSON `null` model name like an absent one. `dict.get` would return the `null`.
- Drives are keyed by a string HCTL. lsblk reports a null HCTL for NVMe drives, so several NVMe drives collapse into one key; string keys do not express that.
- Interfaces.Candidate assumes that a fetched record found by MAC is truthy, so `or` never falls through to the name lookup once the MAC has matched.
- Client.NoMemoryDeviceFails states only one direction. A shared drive/memory name `memory` would also raise `KeyError("memory")`.
- Scalar facts (capacity, power-on time, memory size and speed) are carried unchanged. No arithmetic is done on them.

=== FILE: client.dfy ===
/**
  The script's top level: the drive facts, the observed interfaces and the
  parsed dmidecode output assembled into the payload `update_netbox` reads,
  then the reconciliation run on it.
 */
module Client {
  import opened Wrappers
  import opened PyDict
  import opened Facts
  import opened Netbox
  import opened Smart
  import opened Dmi
  import opened Reconcile

  /** The payload: drives first, whose probes are parsed before the dmidecode
      output is, then the `memory` key merged in from `parse_dmi_info`. */
  function AssembleDeviceInfo(probes: seq<Probe>, interfaces: seq<ObservedInterface>,
                              sections: seq<Section>): (r: Result<DeviceInfo>)
    ensures r.Success? ==> WellFormed(r.value)
    ensures r.Success? ==> r.value.interfaces == interfaces
  {
    match CollectDrives(probes, [])
    case Failure(e) => Failure(e)
    case Success(drives) =>
      match ParseDmiInfo(sections)
      case Failure(e) => Failure(e)
      case Success(dmi) => Success(DeviceInfo(drives, interfaces, dmi.memory))
  }

  /** On a machine whose dmidecode output lists no memory device the payload
      has no `memory` key, and the run ends with the `KeyError` it raises
      before any item is sent; with at least one memory device the key is
      present. */
  lemma NoMemoryDeviceFails(probes: seq<Probe>, interfaces: seq<ObservedInterface>, sections: seq<Section>,
                            device: Device, fetchedInterfaces: seq<RemoteInterface>, fetchedItems: seq<RemoteItem>)
    requires AssembleDeviceInfo(probes, interfaces, sections).Success?
    ensures var info := AssembleDeviceInfo(probes, interfaces, sections).value;
            (forall i :: 0 <= i < |sections| ==> sections[i].typeId != 17)
            ==> UpdateNetbox(info, device, fetchedInterfaces, fetchedItems) == Failure(KeyError("memory"))
    ensures var info := AssembleDeviceInfo(probes, interfaces, sections).value;
            (exists i :: 0 <= i < |sections| && sections[i].typeId == 17) ==> info.memory.Some?
  {
    var info := AssembleDeviceInfo(probes, interfaces, sections).value;
    ParsedMemoryPresent(sections);
    DrivePass(info.drives, device.id, fetchedItems);
  }
}

=== FILE: dmi.dfy ===
/**
  Chassis identity and memory modules from dmidecode (`parse_dmi_info` and
  its helper `merge_keys`). Running dmidecode and `jc.parse` are outside the
  model: a section arrives as its type number and its key/value pairs.
 */
module Dmi {
  import opened Wrappers
  import opened PyDict
  import opened Facts

  /** One parsed dmidecode section. */
  datatype Section = Section(typeId: int, values: map<string, string>)

  /** The type-1 keys copied into the result besides the serial. */
  const SystemInfoKeys: seq<string> := ["uuid", "product_name", "manufacturer"]

  /** The serial some boards report when none was programmed. */
  const PlaceholderSerial := "0123456789"

  /** The default for a missing speed, part number or memory serial. */
  const Unknown := "Unknown"

  /** `merge_keys(source, destination, keys)`: copy into `dest` the entries
      of `source` whose key is listed in `keys`. */
  function MergeKeys(source: map<string, string>, dest: map<string, string>, keys: seq<string>): (r: map<string, string>)
    ensures forall k :: k in r <==> k in dest || (k in source && k in keys)
    ensures forall k :: k in r && k in source && k in keys ==> r[k] == source[k]
    ensures forall k :: k in r && !(k in source && k in keys) ==> r[k] == dest[k]
  {
    dest + map k | k in source && k in keys :: source[k]
  }

  /** `dict.get(key, "Unknown")`. */
  function GetOrUnknown(values: map<string, string>, key: string): string {
    if key in values then values[key] else Unknown
  }

  /** The memory record of a type-17 section whose `size` is present. */
  function MemoryRecord(values: map<string, string>): MemoryModule
    requires "size" in values
  {
    var speed := GetOrUnknown(values, "speed");
    MemoryModule(values["size"], speed, GetOrUnknown(values, "part_number"),
                 GetOrUnknown(values, "serial_number"), values["size"] + " - " + speed)
  }

  /** What the loop of `parse_dmi_info` accumulates. */
  datatype DmiState = DmiState(
    system: map<string, string>,
    memory: seq<(string, MemoryModule)>,
    serial: Option<string>,
    altSerial: Option<string>)

  /** One iteration of the loop, for section `sec`. */
  function VisitSection(st: DmiState, sec: Section): (r: Result<DmiState>)
    requires Valid(st.memory)
    ensures r.Success? ==> Valid(r.value.memory)
  {
    var values := sec.values;
    if sec.typeId == 1 then
      if "serial_number" !in values then Failure(KeyError("serial_number"))
      else Success(st.(serial := Some(values["serial_number"]),
                       system := MergeKeys(values, st.system, SystemInfoKeys)))
    else if sec.typeId == 2 then
      if "serial_number" !in values then Failure(KeyError("serial_number"))
      else Success(st.(altSerial := Some(values["serial_number"])))
    else if sec.typeId == 17 then
      // the record on the right of `memory[values["locator"]] = {...}` is
      // evaluated before the subscript
      if "size" !in values then Failure(KeyError("size"))
      else if "locator" !in values then Failure(KeyError("locator"))
      else Success(st.(memory := Put(st.memory, values["locator"], MemoryRecord(values))))
    else
      Success(st)
  }

  /** The loop of `parse_dmi_info` over `sections`, continuing from `st`. */
  function VisitSections(st: DmiState, sections: seq<Section>): (r: Result<DmiState>)
    requires Valid(st.memory)
    ensures r.Success? ==> Valid(r.value.memory)
    decreases |sections|
  {
    if sections == [] then Success(st)
    else
      match VisitSection(st, sections[0])
      case Failure(e) => Failure(e)
      case Success(next) => VisitSections(next, sections[1..])
  }

  /** The result of `parse_dmi_info`: the copied system keys, the memory
      dict (the key is absent when there is no module) and the serial. */
  datatype DmiInfo = DmiInfo(system: map<string, string>, memory: Option<seq<(string, MemoryModule)>>, serial: Option<string>)

  /** Replaces the placeholder serial by the baseboard's, which may be absent. */
  function ResolveSerial(serial: Option<string>, altSerial: Option<string>): Option<string> {
    if serial == Some(PlaceholderSerial) then altSerial else serial
  }

  /** `parse_dmi_info`. */
  function ParseDmiInfo(sections: seq<Section>): (r: Result<DmiInfo>)
    ensures r.Success? && r.value.memory.Some? ==> Valid(r.value.memory.value) && r.value.memory.value != []
  {
    match VisitSections(DmiState(map[], [], None, None), sections)
    case Failure(e) => Failure(e)
    case Success(st) =>
      Success(DmiInfo(st.system, if st.memory == [] then None else Some(st.memory),
                      ResolveSerial(st.serial, st.altSerial)))
  }

  /** A section `parse_dmi_info` cannot read: a system or baseboard section
      without a serial, or a memory section without a size or a locator. */
  predicate Unreadable(sec: Section) {
    || (sec.typeId in {1, 2} && "serial_number" !in sec.values)
    || (sec.typeId == 17 && ("size" !in sec.values || "locator" !in sec.values))
  }

  /** Parsing fails exactly when some section is unreadable. */
  lemma {:induction false} VisitSectionsFails(st: DmiState, sections: seq<Section>)
    requires Valid(st.memory)
    ensures VisitSections(st, sections).Failure? <==> exists sec :: sec in sections && Unreadable(sec)
    decreases |sections|
  {
    if sections != [] {
      assert sections[0] in sections;
      assert forall sec :: sec in sections <==> sec == sections[0] || sec in sections[1..];
      if VisitSection(st, sections[0]).Success? {
        VisitSectionsFails(VisitSection(st, sections[0]).value, sections[1..]);
      }
    }
  }

  /** The serial value of the last section of type `t`, if any. */
  function LastSerial(sections: seq<Section>, t: int): Option<string> {
    if sections == [] then None
    else
      match LastSerial(sections[1..], t)
      case Some(s) => Some(s)
      case None =>
        if sections[0].typeId == t && "serial_number" in sections[0].values
        then Some(sections[0].values["serial_number"]) else None
  }

  /** The loop keeps the serial of the last type-1 section and that of the
      last type-2 section. */
  lemma {:induction false} VisitSectionsSerials(st: DmiState, sections: seq<Section>)
    requires Valid(st.memory)
    requires VisitSections(st, sections).Success?
    ensures VisitSections(st, sections).value.serial
            == (if LastSerial(sections, 1).Some? then LastSerial(sections, 1) else st.serial)
    ensures VisitSections(st, sections).value.altSerial
            == (if LastSerial(sections, 2).Some? then LastSerial(sections, 2) else st.altSerial)
    decreases |sections|
  {
    if sections != [] {
      VisitSectionsSerials(VisitSection(st, sections[0]).value, sections[1..]);
    }
  }

  /** The device serial: the last type-1 serial, unless it is the
      placeholder, in which case the last type-2 serial -- absent when there
      is no type-2 section, and then nothing reports the missing serial.
      No type-1 section at all leaves the serial absent too. */
  lemma ParsedSerial(sections: seq<Section>)
    requires ParseDmiInfo(sections).Success?
    ensures LastSerial(sections, 1) == Some(PlaceholderSerial) ==>
              ParseDmiInfo(sections).value.serial == LastSerial(sections, 2)
    ensures LastSerial(sections, 1) != Some(PlaceholderSerial) ==>
              ParseDmiInfo(sections).value.serial == LastSerial(sections, 1)
  {
    VisitSectionsSerials(DmiState(map[], [], None, None), sections);
  }

  /** The value of `key` in the last type-1 section that has it. */
  function LastSystemValue(sections: seq<Section>, key: string): Option<string> {
    if sections == [] then None
    else
      match LastSystemValue(sections[1..], key)
      case Some(v) => Some(v)
      case None =>
        if sections[0].typeId == 1 && key in sections[0].values
        then Some(sections[0].values[key]) else None
  }

  /** The loop copies exactly `uuid`, `product_name` and `manufacturer` from
      type-1 sections, a later section's value replacing an earlier one. */
  lemma {:induction false} VisitSectionsSystem(st: DmiState, sections: seq<Section>, key: string)
    requires Valid(st.memory)
    requires VisitSections(st, sections).Success?
    ensures var sys := VisitSections(st, sections).value.system;
            if key in SystemInfoKeys && LastSystemValue(sections, key).Some?
            then key in sys && sys[key] == LastSystemValue(sections, key).value
            else (key in sys <==> key in st.system) && (key in sys ==> sys[key] == st.system[key])
    decreases |sections|
  {
    if sections != [] {
      VisitSectionsSystem(VisitSection(st, sections[0]).value, sections[1..], key);
    }
  }

  /** Only the three system keys are ever copied from type-1 values. */
  lemma ParsedSystemKeys(sections: seq<Section>, key: string)
    requires ParseDmiInfo(sections).Success?
    ensures key in ParseDmiInfo(sections).value.system <==> key in SystemInfoKeys && LastSystemValue(sections, key).Some?
    ensures key in ParseDmiInfo(sections).value.system ==>
              ParseDmiInfo(sections).value.system[key] == LastSystemValue(sections, key).value
  {
    VisitSectionsSystem(DmiState(map[], [], None, None), sections, key);
  }

  /** The values of the last type-17 section whose locator is `loc`. */
  function LastModule(sections: seq<Section>, loc: string): Option<map<string, string>> {
    if sections == [] then None
    else
      match LastModule(sections[1..], loc)
      case Some(v) => Some(v)
      case None =>
        var values := sections[0].values;
        if sections[0].typeId == 17 && "locator" in values && values["locator"] == loc
        then Some(values) else None
  }

  /** One section sets the record of `loc` when it is a memory section with
      that locator, and leaves it alone otherwise. */
  lemma VisitSectionMemory(st: DmiState, sec: Section, loc: string)
    requires Valid(st.memory)
    requires VisitSection(st, sec).Success?
    ensures var before := ToMap(st.memory);
            var after := ToMap(VisitSection(st, sec).value.memory);
            if sec.typeId == 17 && "locator" in sec.values && sec.values["locator"] == loc
            then "size" in sec.values && loc in after && after[loc] == MemoryRecord(sec.values)
            else (loc in after <==> loc in before) && (loc in after ==> after[loc] == before[loc])
  {
  }

  /** The memory dict maps each locator to the record of the last type-17
      section with that locator. */
  lemma {:induction false} VisitSectionsMemory(st: DmiState, sections: seq<Section>, loc: string)
    requires Valid(st.memory)
    requires VisitSections(st, sections).Success?
    ensures var mem := ToMap(VisitSections(st, sections).value.memory);
            match LastModule(sections, loc)
            case Some(values) => "size" in values && loc in mem && mem[loc] == MemoryRecord(values)
            case None => (loc in mem <==> loc in ToMap(st.memory)) && (loc in mem ==> mem[loc] == ToMap(st.memory)[loc])
    decreases |sections|
  {
    if sections != [] {
      var next := VisitSection(st, sections[0]).value;
      VisitSectionsMemory(next, sections[1..], loc);
      VisitSectionMemory(st, sections[0], loc);
    }
  }

  /** Each memory record reads `size` and `locator`, defaults the rest to
      "Unknown", and is described as "<size> - <speed>". */
  lemma ParsedMemory(sections: seq<Section>, loc: string)
    requires ParseDmiInfo(sections).Success?
    ensures var info := ParseDmiInfo(sections).value;
            match LastModule(sections, loc)
            case Some(values) =>
              && "size" in values && info.memory.Some? && loc in ToMap(info.memory.value)
              && var m := ToMap(info.memory.value)[loc];
                 && m.size == values["size"]
                 && m.speed == (if "speed" in values then values["speed"] else Unknown)
                 && m.model == (if "part_number" in values then values["part_number"] else Unknown)
                 && m.serial == (if "serial_number" in values then values["serial_number"] else Unknown)
                 && m.description == m.size + " - " + m.speed
            case None => info.memory.None? || loc !in ToMap(info.memory.value)
  {
    VisitSectionsMemory(DmiState(map[], [], None, None), sections, loc);
  }

  /** The memory dict the loop builds stays empty exactly as long as no
      type-17 section has been read. */
  lemma {:induction false} VisitSectionsNoMemory(st: DmiState, sections: seq<Section>)
    requires Valid(st.memory)
    requires VisitSections(st, sections).Success?
    ensures VisitSections(st, sections).value.memory == [] <==>
              st.memory == [] && forall i :: 0 <= i < |sections| ==> sections[i].typeId != 17
    decreases |sections|
  {
    if sections != [] {
      var next := VisitSection(st, sections[0]).value;
      VisitSectionsNoMemory(next, sections[1..]);
      if sections[0].typeId == 17 {
        var loc := sections[0].values["locator"];
        assert loc in ToMap(next.memory);
      } else if st.memory != [] {
        assert st.memory[0].0 in ToMap(next.memory);
      }
      if forall i :: 0 <= i < |sections| ==> sections[i].typeId != 17 {
        assert forall i :: 0 <= i < |sections[1..]| ==> sections[1..][i].typeId == sections[i + 1].typeId;
      } else {
        var i :| 0 <= i < |sections| && sections[i].typeId == 17;
        if i > 0 {
          assert sections[1..][i - 1].typeId == 17;
        }
      }
    }
  }

  /** `parse_dmi_info` leaves out the `memory` key exactly when dmidecode
      listed no memory device. */
  lemma ParsedMemoryPresent(sections: seq<Section>)
    requires ParseDmiInfo(sections).Success?
    ensures ParseDmiInfo(sections).value.memory.None? <==> forall i :: 0 <= i < |sections| ==> sections[i].typeId != 17
  {
    VisitSectionsNoMemory(DmiState(map[], [], None, None), sections);
  }
}

=== FILE: facts.dfy ===
/** Hardware facts as the collectors hand them to the reconciliation. */
module Facts {
  import opened Wrappers

  /** smartctl's `power_on_time` object, carried along unchanged. */
  datatype PowerOnTime = PowerOnTime(hours: int, minutes: int)

  /** One drive, as `parse_smart` shapes it. */
  datatype Drive = Drive(name: string, model: string, serial: string, size: int, powerOnTime: PowerOnTime)

  /** One memory module, as `parse_dmi_info` shapes a type-17 section. */
  datatype MemoryModule = MemoryModule(size: string, speed: string, model: string, serial: string, description: string)

  /** What the inventory reconciliation reads of a drive or memory record:
      `model`, `serial` and, when the record has one, `description`. */
  datatype Component = Component(model: string, serial: string, description: Option<string>)

  /** A drive record has no `description` key. */
  function DriveComponent(d: Drive): Component {
    Component(d.model, d.serial, None)
  }

  /** A memory record always has one. */
  function MemoryComponent(m: MemoryModule): Component {
    Component(m.model, m.serial, Some(m.description))
  }

  /** An entry of `ip -j link` (or the synthesised `ipmi` entry). */
  datatype ObservedInterface = ObservedInterface(ifname: string, address: string)
}

=== FILE: interfaces.dfy ===
/**
  Interface reconciliation: the loop of `update_netbox` over the observed
  interfaces. The fetched interfaces are indexed by name and by MAC; both
  indexes hold references to the same records, and the loop edits a matched
  record in place. Here a reference is a position in the fetched list, the
  records are state threaded through the loop, and the two indexes never
  change: a later iteration that reaches an edited record through either
  index sees the edit.
 */
module Interfaces {
  import opened Wrappers
  import opened PyDict
  import opened Facts
  import opened Netbox

  /** The interface type every created interface gets. */
  const DefaultType := "1000base-t"

  /** `str.upper` on one ASCII character. */
  function UpperChar(c: char): char {
    if 'a' <= c <= 'z' then (c as int - 32) as char else c
  }

  /** `str.upper` on an ASCII string such as a MAC address. */
  function Upper(s: string): (r: string)
    ensures |r| == |s|
    ensures forall i :: 0 <= i < |s| ==> r[i] == UpperChar(s[i])
  {
    seq(|s|, i requires 0 <= i < |s| => UpperChar(s[i]))
  }

  /** An upper-cased string has no lower-case letter left, and upper-casing
      it again changes nothing. */
  lemma UpperIsCanonical(s: string)
    ensures forall i :: 0 <= i < |s| ==> !('a' <= Upper(s)[i] <= 'z')
    ensures Upper(Upper(s)) == Upper(s)
  {
  }

  /** The create payload for an interface NetBox does not know. */
  datatype InterfaceCreate = InterfaceCreate(device: nat, name: string, macAddress: string, ifType: string)

  /** `interfaces_dict` and `interfaces_by_mac`, holding positions in the
      fetched list. */
  datatype Lookup = Lookup(byName: map<string, int>, byMac: map<Option<string>, int>)

  /** Both indexes point into a record list of length `n`. */
  predicate Fits(l: Lookup, n: nat) {
    && (forall k :: k in l.byName ==> 0 <= l.byName[k] < n)
    && (forall m :: m in l.byMac ==> 0 <= l.byMac[m] < n)
  }

  /** The pairs of `{i.name: i for i in interfaces}`. */
  function NamePairs(fetched: seq<RemoteInterface>): (ps: seq<(string, int)>)
    ensures |ps| == |fetched|
    ensures forall i :: 0 <= i < |ps| ==> ps[i] == (fetched[i].name, i)
  {
    seq(|fetched|, i requires 0 <= i < |fetched| => (fetched[i].name, i))
  }

  /** `interfaces_dict`: later interfaces with the same name win. */
  function NameIndex(fetched: seq<RemoteInterface>): (d: seq<(string, int)>)
    ensures Valid(d)
  {
    FromPairs(NamePairs(fetched))
  }

  /** Every position the name index holds is a fetched interface with that name. */
  lemma NameIndexSound(fetched: seq<RemoteInterface>, k: string)
    requires k in ToMap(NameIndex(fetched))
    ensures 0 <= ToMap(NameIndex(fetched))[k] < |fetched|
    ensures fetched[ToMap(NameIndex(fetched))[k]].name == k
  {
    ToMapFromPair(NamePairs(fetched), k);
  }

  /** `interfaces_dict.values()` lists positions in the fetched list. */
  lemma NameIndexValues(fetched: seq<RemoteInterface>)
    ensures forall j :: 0 <= j < |Values(NameIndex(fetched))| ==> 0 <= Values(NameIndex(fetched))[j] < |fetched|
  {
    var d := NameIndex(fetched);
    forall j | 0 <= j < |Values(d)|
      ensures 0 <= Values(d)[j] < |fetched|
    {
      ValuesAt(d, j);
      EntryInMap(d, j);
      NameIndexSound(fetched, d[j].0);
    }
  }

  /** The pairs of `{i.mac_address: i for i in interfaces_dict.values()}`. */
  function MacPairs(fetched: seq<RemoteInterface>, positions: seq<int>): (ps: seq<(Option<string>, int)>)
    requires forall j :: 0 <= j < |positions| ==> 0 <= positions[j] < |fetched|
    ensures |ps| == |positions|
    ensures forall j :: 0 <= j < |ps| ==> ps[j] == (fetched[positions[j]].mac, positions[j])
  {
    seq(|positions|, j requires 0 <= j < |positions| => (fetched[positions[j]].mac, positions[j]))
  }

  /** Every position the MAC index holds is a fetched interface with that MAC. */
  lemma MacIndexSound(fetched: seq<RemoteInterface>, positions: seq<int>, m: Option<string>)
    requires forall j :: 0 <= j < |positions| ==> 0 <= positions[j] < |fetched|
    requires m in ToMap(FromPairs(MacPairs(fetched, positions)))
    ensures var i := ToMap(FromPairs(MacPairs(fetched, positions)))[m];
            0 <= i < |fetched| && fetched[i].mac == m
  {
    ToMapFromPair(MacPairs(fetched, positions), m);
  }

  /** Builds both indexes the way `update_netbox` does: by name, later
      interfaces winning; then by MAC over the name index's values. */
  function BuildLookup(fetched: seq<RemoteInterface>): (l: Lookup)
    ensures Fits(l, |fetched|)
    ensures forall k :: k in l.byName ==> fetched[l.byName[k]].name == k
    ensures forall m :: m in l.byMac ==> fetched[l.byMac[m]].mac == m
    ensures forall k :: k in l.byName ==> fetched[l.byName[k]].mac in l.byMac
  {
    var byName := NameIndex(fetched);
    NameIndexValues(fetched);
    var macPairs := MacPairs(fetched, Values(byName));
    var byMac := ToMap(FromPairs(macPairs));
    assert forall k :: k in ToMap(byName) ==> 0 <= ToMap(byName)[k] < |fetched| && fetched[ToMap(byName)[k]].name == k by {
      forall k | k in ToMap(byName)
        ensures 0 <= ToMap(byName)[k] < |fetched| && fetched[ToMap(byName)[k]].name == k
      {
        NameIndexSound(fetched, k);
      }
    }
    assert forall m :: m in byMac ==> 0 <= byMac[m] < |fetched| && fetched[byMac[m]].mac == m by {
      forall m | m in byMac
        ensures 0 <= byMac[m] < |fetched| && fetched[byMac[m]].mac == m
      {
        MacIndexSound(fetched, Values(byName), m);
      }
    }
    assert forall k :: k in ToMap(byName) ==> fetched[ToMap(byName)[k]].mac in byMac by {
      forall k | k in ToMap(byName)
        ensures fetched[ToMap(byName)[k]].mac in byMac
      {
        var p := ToMap(byName)[k];
        ValuesOfMap(byName, p);
        var j :| 0 <= j < |Values(byName)| && Values(byName)[j] == p;
        ToMapLastWinsAny(macPairs, j);
      }
    }
    Lookup(ToMap(byName), byMac)
  }

  /** `interfaces_by_mac.get(mac) or interfaces_dict.get(name)`: the MAC
      index first, then the name index. */
  function Candidate(l: Lookup, mac: string, name: string): Option<int> {
    if Some(mac) in l.byMac then Some(l.byMac[Some(mac)])
    else if name in l.byName then Some(l.byName[name])
    else None
  }

  /** Record `i` is the one `interfaces_dict` keeps for its name: no later
      fetched interface has that name. */
  predicate Kept(fetched: seq<RemoteInterface>, i: int) {
    && 0 <= i < |fetched|
    && forall j :: i < j < |fetched| ==> fetched[j].name != fetched[i].name
  }

  /** Two kept records with the same name are the same record. */
  lemma KeptUnique(fetched: seq<RemoteInterface>, i: int, j: int)
    requires Kept(fetched, i) && Kept(fetched, j) && fetched[i].name == fetched[j].name
    ensures i == j
  {
  }

  /** The name index has a name exactly when some fetched interface has it,
      and it holds the kept record for that name. */
  lemma NameIndexKeeps(fetched: seq<RemoteInterface>, k: string)
    ensures k in ToMap(NameIndex(fetched)) <==> exists i :: 0 <= i < |fetched| && fetched[i].name == k
    ensures k in ToMap(NameIndex(fetched)) ==>
              Kept(fetched, ToMap(NameIndex(fetched))[k]) && fetched[ToMap(NameIndex(fetched))[k]].name == k
  {
    var ps := NamePairs(fetched);
    var m := ToMap(NameIndex(fetched));
    assert m == ToMap(ps);
    if exists i :: 0 <= i < |fetched| && fetched[i].name == k {
      var i :| 0 <= i < |fetched| && fetched[i].name == k;
      ToMapLastWinsAny(ps, i);
    }
    if k in m {
      NameIndexSound(fetched, k);
      LastOfKey(ps, k);
      var i :| 0 <= i < |ps| && ps[i] == (k, ToMap(ps)[k]) && forall j :: i < j < |ps| ==> ps[j].0 != k;
      assert i == m[k];
    }
  }

  /** The MAC index has a MAC exactly when one of the records kept by the
      name index carries it: a record shadowed by a later namesake is never
      reached by its MAC. */
  lemma MacIndexKept(fetched: seq<RemoteInterface>, m: Option<string>)
    ensures m in BuildLookup(fetched).byMac <==> exists i :: Kept(fetched, i) && fetched[i].mac == m
    ensures m in BuildLookup(fetched).byMac ==> Kept(fetched, BuildLookup(fetched).byMac[m])
  {
    var byName := NameIndex(fetched);
    NameIndexValues(fetched);
    var macPairs := MacPairs(fetched, Values(byName));
    var l := BuildLookup(fetched);
    assert l.byMac == ToMap(FromPairs(macPairs)) == ToMap(macPairs);
    if m in l.byMac {
      ToMapFromPair(macPairs, m);
      var j :| 0 <= j < |macPairs| && macPairs[j] == (m, ToMap(macPairs)[m]);
      ValuesAt(byName, j);
      EntryInMap(byName, j);
      NameIndexKeeps(fetched, byName[j].0);
    }
    if exists i :: Kept(fetched, i) && fetched[i].mac == m {
      var i :| Kept(fetched, i) && fetched[i].mac == m;
      var k := fetched[i].name;
      NameIndexKeeps(fetched, k);
      var p := ToMap(byName)[k];
      KeptUnique(fetched, i, p);
      ValuesOfMap(byName, p);
      var j :| 0 <= j < |Values(byName)| && Values(byName)[j] == p;
      ToMapLastWinsAny(macPairs, j);
    }
  }

  /** Where the name `k` first occurs in the fetched list, or `|fetched|`
      when no fetched interface has it: the place of `k` in the iteration
      order of `interfaces_dict`. */
  function FirstSeen(fetched: seq<RemoteInterface>, k: string): (r: nat)
    ensures r <= |fetched|
    ensures r < |fetched| ==> fetched[r].name == k
    ensures forall j :: 0 <= j < r ==> fetched[j].name != k
  {
    FirstIndex(NamePairs(fetched), k)
  }

  /** A kept record sits in `interfaces_dict` under its own name, at entry
      `j`. */
  lemma KeptEntry(fetched: seq<RemoteInterface>, i: int) returns (j: int)
    requires Kept(fetched, i)
    ensures 0 <= j < |NameIndex(fetched)|
    ensures Keys(NameIndex(fetched))[j] == fetched[i].name && Values(NameIndex(fetched))[j] == i
  {
    var byName := NameIndex(fetched);
    var k := fetched[i].name;
    NameIndexKeeps(fetched, k);
    KeptUnique(fetched, i, ToMap(byName)[k]);
    j :| 0 <= j < |Keys(byName)| && Keys(byName)[j] == k;
    KeysAt(byName, j);
    EntryInMap(byName, j);
    ValuesAt(byName, j);
  }

  /** Every position `interfaces_dict` holds is in range. */
  predicate PositionsFit(fetched: seq<RemoteInterface>, positions: seq<int>) {
    forall j :: 0 <= j < |positions| ==> 0 <= positions[j] < |fetched|
  }

  /** The MAC index is the lookup view of the pairs built over
      `interfaces_dict.values()`. */
  lemma MacIndexIsView(fetched: seq<RemoteInterface>)
    ensures PositionsFit(fetched, Values(NameIndex(fetched)))
    ensures BuildLookup(fetched).byMac == ToMap(MacPairs(fetched, Values(NameIndex(fetched))))
  {
    NameIndexValues(fetched);
  }

  /** The record a MAC view built over a dict's values holds for `m` comes
      from entry `jp`, after which no entry's record carries `m`. */
  lemma MacWinnerIn(fetched: seq<RemoteInterface>, d: seq<(string, int)>, byMac: map<Option<string>, int>, m: Option<string>)
    returns (jp: int)
    requires Valid(d) && PositionsFit(fetched, Values(d))
    requires byMac == ToMap(MacPairs(fetched, Values(d))) && m in byMac
    ensures 0 <= jp < |d| && Values(d)[jp] == byMac[m] && d[jp] == (Keys(d)[jp], byMac[m])
    ensures forall j :: jp < j < |d| ==> fetched[Values(d)[j]].mac != m
  {
    var macPairs := MacPairs(fetched, Values(d));
    LastOfKey(macPairs, m);
    jp :| 0 <= jp < |macPairs| && macPairs[jp] == (m, byMac[m]) && forall i :: jp < i < |macPairs| ==> macPairs[i].0 != m;
    ValuesAt(d, jp);
    KeysAt(d, jp);
  }

  /** The record the MAC index holds for `m` comes from entry `jp` of
      `interfaces_dict`, after which no entry's record carries `m`. */
  lemma MacWinnerEntry(fetched: seq<RemoteInterface>, m: Option<string>) returns (jp: int)
    requires m in BuildLookup(fetched).byMac
    ensures PositionsFit(fetched, Values(NameIndex(fetched)))
    ensures 0 <= jp < |NameIndex(fetched)|
    ensures Values(NameIndex(fetched))[jp] == BuildLookup(fetched).byMac[m]
    ensures Keys(NameIndex(fetched))[jp] == fetched[BuildLookup(fetched).byMac[m]].name
    ensures forall j :: jp < j < |NameIndex(fetched)| ==> fetched[Values(NameIndex(fetched))[j]].mac != m
  {
    var d := NameIndex(fetched);
    var byMac := BuildLookup(fetched).byMac;
    assert PositionsFit(fetched, Values(d)) && byMac == ToMap(MacPairs(fetched, Values(d))) by {
      MacIndexIsView(fetched);
    }
    jp := MacWinnerIn(fetched, d, byMac, m);
    assert fetched[byMac[m]].name == Keys(d)[jp] by {
      EntryInMap(d, jp);
      NameIndexSound(fetched, d[jp].0);
    }
  }

  /** When several kept records carry the same MAC, the MAC index holds the
      one whose name entered `interfaces_dict` last: the comprehension over
      `interfaces_dict.values()` visits names in first-occurrence order and
      a later pair wins. */
  lemma MacIndexTieBreak(fetched: seq<RemoteInterface>, m: Option<string>, i: int)
    requires Kept(fetched, i) && fetched[i].mac == m
    ensures m in BuildLookup(fetched).byMac
    ensures FirstSeen(fetched, fetched[i].name) <= FirstSeen(fetched, fetched[BuildLookup(fetched).byMac[m]].name)
  {
    MacIndexKept(fetched, m);
    var d := NameIndex(fetched);
    var ji := KeptEntry(fetched, i);
    var jp := MacWinnerEntry(fetched, m);
    assert ji <= jp;
    assert |Keys(FromPairs(NamePairs(fetched)))| == |d|;
    FromPairsOrder(NamePairs(fetched));
  }

  /** The MAC index has a MAC exactly when a kept record carries it, holds a
      kept record for it, and among several kept records with that MAC holds
      the one whose name first occurs latest. */
  lemma MacIndexComplete(fetched: seq<RemoteInterface>, m: Option<string>)
    ensures m in BuildLookup(fetched).byMac <==> exists i :: Kept(fetched, i) && fetched[i].mac == m
    ensures m in BuildLookup(fetched).byMac ==> Kept(fetched, BuildLookup(fetched).byMac[m])
    ensures forall i :: Kept(fetched, i) && fetched[i].mac == m ==>
              && m in BuildLookup(fetched).byMac
              && FirstSeen(fetched, fetched[i].name) <= FirstSeen(fetched, fetched[BuildLookup(fetched).byMac[m]].name)
  {
    MacIndexKept(fetched, m);
    forall i | Kept(fetched, i) && fetched[i].mac == m
      ensures m in BuildLookup(fetched).byMac
      ensures FirstSeen(fetched, fetched[i].name) <= FirstSeen(fetched, fetched[BuildLookup(fetched).byMac[m]].name)
    {
      MacIndexTieBreak(fetched, m, i);
    }
  }

  /** The candidate of an observed interface, in terms of the fetched
      interfaces alone: a kept record carrying the observed MAC when there
      is one, and among several such the one whose name first occurs latest;
      otherwise the kept record with the observed name, and none only when
      no fetched interface has that name. */
  lemma CandidateOfFetched(fetched: seq<RemoteInterface>, mac: string, name: string)
    ensures var c := Candidate(BuildLookup(fetched), mac, name);
            (exists i :: Kept(fetched, i) && fetched[i].mac == Some(mac)) ==>
              c.Some? && Kept(fetched, c.value) && fetched[c.value].mac == Some(mac)
    ensures var c := Candidate(BuildLookup(fetched), mac, name);
            forall i :: Kept(fetched, i) && fetched[i].mac == Some(mac) ==>
              c.Some? && 0 <= c.value < |fetched| && FirstSeen(fetched, fetched[i].name) <= FirstSeen(fetched, fetched[c.value].name)
    ensures var c := Candidate(BuildLookup(fetched), mac, name);
            !(exists i :: Kept(fetched, i) && fetched[i].mac == Some(mac)) ==>
              && (c.Some? <==> exists i :: 0 <= i < |fetched| && fetched[i].name == name)
              && (c.Some? ==> Kept(fetched, c.value) && fetched[c.value].name == name)
  {
    MacIndexComplete(fetched, Some(mac));
    NameIndexKeeps(fetched, name);
  }

  /** The state the loop threads: the fetched records with the edits made
      so far, the create list, and the update list, which holds references. */
  datatype Walk = Walk(records: seq<RemoteInterface>, adds: seq<InterfaceCreate>, updates: seq<int>)

  /** Every reference in the update list points into the record list. */
  predicate RefsFit(w: Walk) {
    forall n :: 0 <= n < |w.updates| ==> 0 <= w.updates[n] < |w.records|
  }

  /** The create payload for an observed interface. */
  function CreateFor(deviceId: nat, o: ObservedInterface): InterfaceCreate {
    InterfaceCreate(deviceId, o.ifname, Upper(o.address), DefaultType)
  }

  /** One iteration, for the observed interface `o`. */
  function Step(l: Lookup, deviceId: nat, w: Walk, o: ObservedInterface): (r: Walk)
    requires Fits(l, |w.records|)
    ensures |r.records| == |w.records|
    ensures Candidate(l, Upper(o.address), o.ifname).None? ==>
              && r.records == w.records && r.updates == w.updates
              && r.adds == w.adds + [CreateFor(deviceId, o)]
    ensures Candidate(l, Upper(o.address), o.ifname).Some? ==>
              var i := Candidate(l, Upper(o.address), o.ifname).value;
              && r.adds == w.adds
              && r.records[i] == RemoteInterface(w.records[i].id, o.ifname, Some(Upper(o.address)))
              && (forall j :: 0 <= j < |w.records| && j != i ==> r.records[j] == w.records[j])
              && r.updates == (if r.records[i] != w.records[i] then w.updates + [i] else w.updates)
  {
    var mac := Upper(o.address);
    match Candidate(l, mac, o.ifname)
    case None => w.(adds := w.adds + [CreateFor(deviceId, o)])
    case Some(i) =>
      var rec := w.records[i];
      if rec.mac != Some(mac) || rec.name != o.ifname then
        w.(records := w.records[i := rec.(mac := Some(mac), name := o.ifname)], updates := w.updates + [i])
      else
        w
  }

  /** The loop over all observed interfaces. No record is ever removed and
      none changes identity: the loop has no delete path. */
  function WalkInterfaces(l: Lookup, deviceId: nat, w: Walk, observed: seq<ObservedInterface>): (r: Walk)
    requires Fits(l, |w.records|)
    ensures |r.records| == |w.records|
    ensures forall j :: 0 <= j < |w.records| ==> r.records[j].id == w.records[j].id
    ensures w.adds <= r.adds && w.updates <= r.updates
    ensures |r.adds| + |r.updates| <= |w.adds| + |w.updates| + |observed|
    ensures RefsFit(w) ==> RefsFit(r)
    decreases |observed|
  {
    if observed == [] then w
    else WalkInterfaces(l, deviceId, Step(l, deviceId, w, observed[0]), observed[1..])
  }

  /** The creates the loop must emit, independently of any edit: one per
      observed interface with no candidate, in order. */
  function Creates(l: Lookup, deviceId: nat, observed: seq<ObservedInterface>): seq<InterfaceCreate> {
    if observed == [] then []
    else
      (if Candidate(l, Upper(observed[0].address), observed[0].ifname).None?
       then [CreateFor(deviceId, observed[0])] else [])
      + Creates(l, deviceId, observed[1..])
  }

  /** The create list is exactly `Creates`: edits made to matched records
      never turn a later interface into a create or the other way round. */
  lemma {:induction false} WalkAdds(l: Lookup, deviceId: nat, w: Walk, observed: seq<ObservedInterface>)
    requires Fits(l, |w.records|)
    ensures WalkInterfaces(l, deviceId, w, observed).adds == w.adds + Creates(l, deviceId, observed)
    decreases |observed|
  {
    if observed != [] {
      var next := Step(l, deviceId, w, observed[0]);
      WalkAdds(l, deviceId, next, observed[1..]);
      var first := if Candidate(l, Upper(observed[0].address), observed[0].ifname).None?
                   then [CreateFor(deviceId, observed[0])] else [];
      assert next.adds == w.adds + first;
      assert Creates(l, deviceId, observed) == first + Creates(l, deviceId, observed[1..]);
      assert w.adds + first + Creates(l, deviceId, observed[1..]) == w.adds + (first + Creates(l, deviceId, observed[1..]));
    }
  }

  /** The last observed interface, if any, whose candidate is record `j`. */
  function LastHit(l: Lookup, observed: seq<ObservedInterface>, j: int): Option<ObservedInterface> {
    if observed == [] then None
    else
      match LastHit(l, observed[1..], j)
      case Some(o) => Some(o)
      case None =>
        if Candidate(l, Upper(observed[0].address), observed[0].ifname) == Some(j)
        then Some(observed[0]) else None
  }

  /** `LastHit` finds a match exactly when some observed interface resolves
      to record `j`, and what it finds is such an interface. */
  lemma {:induction false} LastHitFound(l: Lookup, observed: seq<ObservedInterface>, j: int)
    ensures LastHit(l, observed, j).Some? <==>
              exists o :: o in observed && Candidate(l, Upper(o.address), o.ifname) == Some(j)
    ensures LastHit(l, observed, j).Some? ==>
              && LastHit(l, observed, j).value in observed
              && Candidate(l, Upper(LastHit(l, observed, j).value.address), LastHit(l, observed, j).value.ifname) == Some(j)
    decreases |observed|
  {
    if observed != [] {
      LastHitFound(l, observed[1..], j);
      assert observed[0] in observed;
      assert forall o :: o in observed[1..] ==> o in observed;
      if exists o :: o in observed && Candidate(l, Upper(o.address), o.ifname) == Some(j) {
        var o :| o in observed && Candidate(l, Upper(o.address), o.ifname) == Some(j);
        if o != observed[0] {
          assert o in observed[1..];
        }
      }
    }
  }

  /** An interface is in `Creates` exactly when it is the create payload of
      an observed interface without a candidate. */
  lemma {:induction false} CreatesAreUnmatched(l: Lookup, deviceId: nat, observed: seq<ObservedInterface>, c: InterfaceCreate)
    ensures c in Creates(l, deviceId, observed) <==>
              exists o :: o in observed && Candidate(l, Upper(o.address), o.ifname).None? && c == CreateFor(deviceId, o)
    decreases |observed|
  {
    if observed != [] {
      CreatesAreUnmatched(l, deviceId, observed[1..], c);
      assert observed[0] in observed;
      assert forall o :: o in observed[1..] ==> o in observed;
      if exists o :: o in observed && Candidate(l, Upper(o.address), o.ifname).None? && c == CreateFor(deviceId, o) {
        var o :| o in observed && Candidate(l, Upper(o.address), o.ifname).None? && c == CreateFor(deviceId, o);
        if o != observed[0] {
          assert o in observed[1..];
        }
      }
    }
  }

  /** After the loop every record holds the MAC and name of the last observed
      interface that matched it, and a record nothing matched is unchanged. */
  lemma {:induction false} WalkFinalRecords(l: Lookup, deviceId: nat, w: Walk, observed: seq<ObservedInterface>, j: int)
    requires Fits(l, |w.records|) && 0 <= j < |w.records|
    ensures WalkInterfaces(l, deviceId, w, observed).records[j]
            == match LastHit(l, observed, j)
               case None => w.records[j]
               case Some(o) => RemoteInterface(w.records[j].id, o.ifname, Some(Upper(o.address)))
    decreases |observed|
  {
    if observed != [] {
      WalkFinalRecords(l, deviceId, Step(l, deviceId, w, observed[0]), observed[1..], j);
    }
  }

  /** Every reference appended to the update list is the candidate of an
      observed interface. */
  lemma {:induction false} WalkUpdatesAreCandidates(l: Lookup, deviceId: nat, w: Walk, observed: seq<ObservedInterface>)
    requires Fits(l, |w.records|)
    ensures var r := WalkInterfaces(l, deviceId, w, observed);
            forall n :: |w.updates| <= n < |r.updates| ==>
              exists o :: o in observed && Candidate(l, Upper(o.address), o.ifname) == Some(r.updates[n])
    decreases |observed|
  {
    if observed != [] {
      var next := Step(l, deviceId, w, observed[0]);
      WalkUpdatesAreCandidates(l, deviceId, next, observed[1..]);
      var r := WalkInterfaces(l, deviceId, w, observed);
      assert r == WalkInterfaces(l, deviceId, next, observed[1..]);
      forall n | |w.updates| <= n < |r.updates|
        ensures exists o :: o in observed && Candidate(l, Upper(o.address), o.ifname) == Some(r.updates[n])
      {
        if n < |next.updates| {
          assert r.updates[n] == next.updates[n];
          assert observed[0] in observed;
        } else {
          var o :| o in observed[1..] && Candidate(l, Upper(o.address), o.ifname) == Some(r.updates[n]);
          assert o in observed;
        }
      }
    }
  }

  /** Running the loop over one more interface is one more step. */
  lemma {:induction false} WalkSnoc(l: Lookup, deviceId: nat, w: Walk, observed: seq<ObservedInterface>, o: ObservedInterface)
    requires Fits(l, |w.records|)
    ensures WalkInterfaces(l, deviceId, w, observed + [o])
            == Step(l, deviceId, WalkInterfaces(l, deviceId, w, observed), o)
    decreases |observed|
  {
    if observed == [] {
      assert observed + [o] == [o];
      assert [o][1..] == [];
    } else {
      assert (observed + [o])[0] == observed[0];
      assert (observed + [o])[1..] == observed[1..] + [o];
      WalkSnoc(l, deviceId, Step(l, deviceId, w, observed[0]), observed[1..], o);
    }
  }

  /** The state record `j` is in once the interfaces `observed` have been
      through the loop: the fetched record, with the name and MAC of the
      last of them that resolved to it. */
  function RecordAfter(l: Lookup, fetched: seq<RemoteInterface>, observed: seq<ObservedInterface>, j: int): RemoteInterface
    requires 0 <= j < |fetched|
  {
    match LastHit(l, observed, j)
    case None => fetched[j]
    case Some(o) => RemoteInterface(fetched[j].id, o.ifname, Some(Upper(o.address)))
  }

  /** The references the loop must append: one for each observed interface
      whose candidate, as the earlier interfaces left it, differs from what
      this interface writes into it. */
  function ExpectedUpdates(l: Lookup, fetched: seq<RemoteInterface>, observed: seq<ObservedInterface>): seq<int>
    requires Fits(l, |fetched|)
    decreases |observed|
  {
    if observed == [] then []
    else
      var n := |observed| - 1;
      var o := observed[n];
      var earlier := observed[..n];
      ExpectedUpdates(l, fetched, earlier)
      + match Candidate(l, Upper(o.address), o.ifname)
        case None => []
        case Some(c) =>
          if RecordAfter(l, fetched, earlier, c) != RemoteInterface(fetched[c].id, o.ifname, Some(Upper(o.address)))
          then [c] else []
  }

  /** The update list of the loop started from the fetched records is
      exactly `ExpectedUpdates`: a record is appended each time an observed
      interface resolves to it while it differs, and at no other time. */
  lemma {:induction false} WalkUpdates(l: Lookup, deviceId: nat, fetched: seq<RemoteInterface>, observed: seq<ObservedInterface>)
    requires Fits(l, |fetched|)
    ensures WalkInterfaces(l, deviceId, Walk(fetched, [], []), observed).updates == ExpectedUpdates(l, fetched, observed)
    decreases |observed|
  {
    if observed != [] {
      var start := Walk(fetched, [], []);
      var n := |observed| - 1;
      var o := observed[n];
      var earlier := observed[..n];
      assert observed == earlier + [o];
      WalkSnoc(l, deviceId, start, earlier, o);
      WalkUpdates(l, deviceId, fetched, earlier);
      var p := WalkInterfaces(l, deviceId, start, earlier);
      match Candidate(l, Upper(o.address), o.ifname)
      case None =>
      case Some(c) =>
        WalkFinalRecords(l, deviceId, start, earlier, c);
        assert p.records[c] == RecordAfter(l, fetched, earlier, c);
    }
  }

  /** Every record the loop changed is in the part of the update list the
      loop appended: an edit is never made without the record being sent. */
  lemma {:induction false} WalkChangedIsUpdated(l: Lookup, deviceId: nat, w: Walk, observed: seq<ObservedInterface>, j: int)
    requires Fits(l, |w.records|) && 0 <= j < |w.records|
    ensures var r := WalkInterfaces(l, deviceId, w, observed);
            r.records[j] != w.records[j] ==> j in r.updates[|w.updates|..]
    decreases |observed|
  {
    if observed != [] {
      var next := Step(l, deviceId, w, observed[0]);
      var r := WalkInterfaces(l, deviceId, w, observed);
      assert r == WalkInterfaces(l, deviceId, next, observed[1..]);
      WalkChangedIsUpdated(l, deviceId, next, observed[1..], j);
      if r.records[j] != w.records[j] {
        if next.records[j] != w.records[j] {
          assert next.updates == w.updates + [j];
          assert r.updates[|w.updates|] == j;
        } else {
          var k :| |next.updates| <= k < |r.updates| && r.updates[k] == j;
          assert r.updates[|w.updates|..][k - |w.updates|] == j;
        }
      }
    }
  }

  /** Every observed interface already present, under its MAC and name, in
      the record it resolves to. */
  predicate InSync(l: Lookup, records: seq<RemoteInterface>, observed: seq<ObservedInterface>) {
    forall o :: o in observed ==>
      var c := Candidate(l, Upper(o.address), o.ifname);
      && c.Some? && 0 <= c.value < |records|
      && records[c.value].mac == Some(Upper(o.address))
      && records[c.value].name == o.ifname
  }

  /** Re-running on interfaces NetBox already has emits nothing and edits
      nothing. */
  lemma {:induction false} WalkInSyncIsNoOp(l: Lookup, deviceId: nat, w: Walk, observed: seq<ObservedInterface>)
    requires Fits(l, |w.records|)
    requires InSync(l, w.records, observed)
    ensures WalkInterfaces(l, deviceId, w, observed) == w
    decreases |observed|
  {
    if observed != [] {
      assert observed[0] in observed;
      assert Step(l, deviceId, w, observed[0]) == w;
      assert forall o :: o in observed[1..] ==> o in observed;
      WalkInSyncIsNoOp(l, deviceId, w, observed[1..]);
    }
  }
}

=== FILE: inventory.dfy ===
/**
  Inventory-item reconciliation (`update_fields`): one pass over the observed
  drives or memory modules, keyed by name, against the fetched `autogen`
  items. A pass threads the shared add list, update list and remove dict
  through the loop, as the Python code shares them between its two calls.
 */
module Inventory {
  import opened Wrappers
  import opened PyDict
  import opened Facts
  import opened Netbox

  /** The tag every item the client creates carries. */
  const AutogenTag := "autogen"

  /** Which of the two passes produced an item; its tag name is the second tag. */
  datatype Kind = DriveKind | MemoryKind

  function TagName(kind: Kind): string {
    match kind
    case DriveKind => "drive"
    case MemoryKind => "memory"
  }

  /** An inventory-item payload. `device` is set only on a create, `id` only
      on an update; `description` only when the observed record has one. */
  datatype ItemPayload = ItemPayload(
    name: string,
    partId: string,
    serial: string,
    tags: seq<string>,
    description: Option<string>,
    device: Option<nat>,
    id: Option<nat>)

  /** The payload both branches start from. */
  function BasePayload(key: string, c: Component, kind: Kind): ItemPayload {
    ItemPayload(key, c.model, c.serial, [AutogenTag, TagName(kind)], c.description, None, None)
  }

  /** The payload for an observed component no remote item is named after. */
  function CreatePayload(key: string, c: Component, kind: Kind, deviceId: nat): ItemPayload {
    BasePayload(key, c, kind).(device := Some(deviceId))
  }

  /** The payload for a remote item whose serial differs from the observed one. */
  function UpdatePayload(key: string, c: Component, kind: Kind, itemId: nat): ItemPayload {
    BasePayload(key, c, kind).(id := Some(itemId))
  }

  function Names(ps: seq<ItemPayload>): (ns: seq<string>)
    ensures |ns| == |ps|
    ensures forall i :: 0 <= i < |ps| ==> ns[i] == ps[i].name
  {
    seq(|ps|, i requires 0 <= i < |ps| => ps[i].name)
  }

  /** The state shared by both passes: the add list, the update list and
      the dict of not-yet-matched remote items. */
  datatype Pass = Pass(adds: seq<ItemPayload>, updates: seq<ItemPayload>, remaining: seq<(string, RemoteItem)>)

  /** One iteration of the loop, for the observed component `c` named `key`. */
  function Visit(acc: Pass, key: string, c: Component, kind: Kind, deviceId: nat,
                 inventory: map<string, RemoteItem>): (r: Result<Pass>)
    requires Valid(acc.remaining)
    ensures r.Failure? <==> key in inventory && key !in ToMap(acc.remaining)
    ensures r.Success? ==> Valid(r.value.remaining)
    ensures r.Success? && key in inventory ==> ToMap(r.value.remaining) == ToMap(acc.remaining) - {key}
    ensures r.Success? && key !in inventory ==> r.value.remaining == acc.remaining
  {
    if key in inventory then
      match Pop(acc.remaining, key)
      case None => Failure(KeyError(key))
      case Some((_, rest)) =>
        if inventory[key].serial != c.serial then
          Success(Pass(acc.adds, acc.updates + [UpdatePayload(key, c, kind, inventory[key].id)], rest))
        else
          Success(acc.(remaining := rest))
    else
      Success(acc.(adds := acc.adds + [CreatePayload(key, c, kind, deviceId)]))
  }

  /** `update_fields(data, device, kind, inventory_dict, ...)` continuing from
      the shared state `acc`; a `KeyError` from `pop` ends the run. */
  function UpdateFields(data: seq<(string, Component)>, kind: Kind, deviceId: nat,
                        inventory: map<string, RemoteItem>, acc: Pass): (r: Result<Pass>)
    requires Valid(acc.remaining)
    ensures r.Success? ==> Valid(r.value.remaining)
    decreases |data|
  {
    if data == [] then Success(acc)
    else
      match Visit(acc, data[0].0, data[0].1, kind, deviceId, inventory)
      case Failure(e) => Failure(e)
      case Success(next) => UpdateFields(data[1..], kind, deviceId, inventory, next)
  }

  /** The observed keys that a remote item is named after. */
  function Matched(data: seq<(string, Component)>, inventory: map<string, RemoteItem>): set<string> {
    set k | k in Keys(data) && k in inventory
  }

  /** A pass fails exactly when an observed key with a remote item has
      already been popped from the remove dict. */
  lemma {:induction false} UpdateFieldsFails(data: seq<(string, Component)>, kind: Kind, deviceId: nat,
                                             inventory: map<string, RemoteItem>, acc: Pass)
    requires Valid(data) && Valid(acc.remaining)
    ensures UpdateFields(data, kind, deviceId, inventory, acc).Failure?
            <==> exists k :: k in Keys(data) && k in inventory && k !in ToMap(acc.remaining)
  {
    if data != [] {
      var k0 := data[0].0;
      SplitFirst(data);
      var v := Visit(acc, k0, data[0].1, kind, deviceId, inventory);
      if v.Success? {
        UpdateFieldsFails(data[1..], kind, deviceId, inventory, v.value);
        if exists k :: k in Keys(data) && k in inventory && k !in ToMap(acc.remaining) {
          var k :| k in Keys(data) && k in inventory && k !in ToMap(acc.remaining);
          assert k != k0;
          assert k in Keys(data[1..]) && k !in ToMap(v.value.remaining);
        }
      } else {
        assert k0 in Keys(data);
      }
    }
  }

  /** The matched keys of a non-empty dict: those of its tail, plus its
      first key when a remote item has it. */
  lemma MatchedFirst(data: seq<(string, Component)>, inventory: map<string, RemoteItem>)
    requires data != []
    ensures Matched(data, inventory)
            == Matched(data[1..], inventory) + (if data[0].0 in inventory then {data[0].0} else {})
  {
    assert Keys(data) == [data[0].0] + Keys(data[1..]);
  }

  /** Taking out one set of keys and then another is taking out their union. */
  lemma MinusMinus(before: map<string, RemoteItem>, middle: map<string, RemoteItem>, after: map<string, RemoteItem>,
                   first: set<string>, rest: set<string>, all: set<string>)
    requires middle == before - first && after == middle - rest && all == rest + first
    ensures after == before - all
  {
  }

  /** After a successful pass the remove dict has lost exactly the matched keys. */
  lemma {:induction false} UpdateFieldsRemaining(data: seq<(string, Component)>, kind: Kind, deviceId: nat,
                                                 inventory: map<string, RemoteItem>, acc: Pass)
    requires Valid(data) && Valid(acc.remaining)
    requires UpdateFields(data, kind, deviceId, inventory, acc).Success?
    ensures ToMap(UpdateFields(data, kind, deviceId, inventory, acc).value.remaining)
            == ToMap(acc.remaining) - Matched(data, inventory)
    decreases |data|
  {
    if data != [] {
      var k0 := data[0].0;
      var next := Visit(acc, k0, data[0].1, kind, deviceId, inventory).value;
      var r := UpdateFields(data[1..], kind, deviceId, inventory, next);
      assert UpdateFields(data, kind, deviceId, inventory, acc) == r;
      UpdateFieldsRemaining(data[1..], kind, deviceId, inventory, next);
      MatchedFirst(data, inventory);
      var first: set<string> := if k0 in inventory then {k0} else {};
      if k0 !in inventory {
        assert ToMap(acc.remaining) - first == ToMap(acc.remaining);
      }
      MinusMinus(ToMap(acc.remaining), ToMap(next.remaining), ToMap(r.value.remaining),
                 first, Matched(data[1..], inventory), Matched(data, inventory));
    }
  }

  /** Appending a payload appends its name. */
  lemma NamesSnoc(ps: seq<ItemPayload>, p: ItemPayload)
    ensures Names(ps + [p]) == Names(ps) + [p.name]
  {
  }

  /** Whether an observed key gets a create payload in a pass. */
  function AddCount(data: seq<(string, Component)>, inventory: map<string, RemoteItem>, k: string): nat {
    if k in Keys(data) && k !in inventory then 1 else 0
  }

  /** Whether an observed key gets an update payload in a pass. */
  function UpdateCount(data: seq<(string, Component)>, inventory: map<string, RemoteItem>, k: string): nat
    requires Valid(data)
  {
    if k in Keys(data) && k in inventory && inventory[k].serial != ToMap(data)[k].serial then 1 else 0
  }

  /** A pass only appends to the shared add and update lists. */
  lemma {:induction false} UpdateFieldsAppends(data: seq<(string, Component)>, kind: Kind, deviceId: nat,
                                               inventory: map<string, RemoteItem>, acc: Pass)
    requires Valid(acc.remaining)
    requires UpdateFields(data, kind, deviceId, inventory, acc).Success?
    ensures acc.adds <= UpdateFields(data, kind, deviceId, inventory, acc).value.adds
    ensures acc.updates <= UpdateFields(data, kind, deviceId, inventory, acc).value.updates
  {
    if data != [] {
      var next := Visit(acc, data[0].0, data[0].1, kind, deviceId, inventory).value;
      UpdateFieldsAppends(data[1..], kind, deviceId, inventory, next);
    }
  }

  /** One iteration adds one create payload for its key when no remote
      item has it, and nothing for any other name. */
  lemma VisitAddCount(acc: Pass, key: string, c: Component, kind: Kind, deviceId: nat,
                      inventory: map<string, RemoteItem>, k: string)
    requires Valid(acc.remaining)
    requires Visit(acc, key, c, kind, deviceId, inventory).Success?
    ensures multiset(Names(Visit(acc, key, c, kind, deviceId, inventory).value.adds))[k]
            == multiset(Names(acc.adds))[k] + (if k == key && key !in inventory then 1 else 0)
  {
    if key !in inventory {
      NamesSnoc(acc.adds, CreatePayload(key, c, kind, deviceId));
    }
  }

  /** A pass appends one create payload per observed key without a remote
      item, and none for any other name. */
  lemma {:induction false} UpdateFieldsAddCounts(data: seq<(string, Component)>, kind: Kind, deviceId: nat,
                                                 inventory: map<string, RemoteItem>, acc: Pass, k: string)
    requires Valid(data) && Valid(acc.remaining)
    requires UpdateFields(data, kind, deviceId, inventory, acc).Success?
    ensures multiset(Names(UpdateFields(data, kind, deviceId, inventory, acc).value.adds))[k]
            == multiset(Names(acc.adds))[k] + AddCount(data, inventory, k)
    decreases |data|
  {
    if data != [] {
      var k0 := data[0].0;
      assert Keys(data) == [k0] + Keys(data[1..]);
      var next := Visit(acc, k0, data[0].1, kind, deviceId, inventory).value;
      assert UpdateFields(data, kind, deviceId, inventory, acc) == UpdateFields(data[1..], kind, deviceId, inventory, next);
      UpdateFieldsAddCounts(data[1..], kind, deviceId, inventory, next, k);
      VisitAddCount(acc, k0, data[0].1, kind, deviceId, inventory, k);
      assert AddCount(data, inventory, k)
             == AddCount(data[1..], inventory, k) + (if k == k0 && k0 !in inventory then 1 else 0);
    }
  }

  /** Every create payload a pass appends is shaped from the observed record
      of a key without a remote item. */
  lemma {:induction false} UpdateFieldsAddShapes(data: seq<(string, Component)>, kind: Kind, deviceId: nat,
                                                 inventory: map<string, RemoteItem>, acc: Pass)
    requires Valid(data) && Valid(acc.remaining)
    requires UpdateFields(data, kind, deviceId, inventory, acc).Success?
    ensures var r := UpdateFields(data, kind, deviceId, inventory, acc).value;
            forall i :: |acc.adds| <= i < |r.adds| ==>
              && r.adds[i].name in Keys(data) && r.adds[i].name !in inventory
              && r.adds[i] == CreatePayload(r.adds[i].name, ToMap(data)[r.adds[i].name], kind, deviceId)
  {
    if data != [] {
      var k0 := data[0].0;
      SplitFirst(data);
      var next := Visit(acc, k0, data[0].1, kind, deviceId, inventory).value;
      assert UpdateFields(data, kind, deviceId, inventory, acc) == UpdateFields(data[1..], kind, deviceId, inventory, next);
      UpdateFieldsAddShapes(data[1..], kind, deviceId, inventory, next);
      UpdateFieldsAppends(data[1..], kind, deviceId, inventory, next);
      var r := UpdateFields(data[1..], kind, deviceId, inventory, next).value;
      forall i | |acc.adds| <= i < |r.adds|
        ensures r.adds[i].name in Keys(data) && r.adds[i].name !in inventory
        ensures r.adds[i] == CreatePayload(r.adds[i].name, ToMap(data)[r.adds[i].name], kind, deviceId)
      {
        if i < |next.adds| {
          assert r.adds[i] == next.adds[i];
        } else {
          assert r.adds[i].name in Keys(data[1..]);
        }
      }
    }
  }

  /** One iteration adds one update payload for its key when the remote
      item with that name has another serial, and nothing for any other name. */
  lemma VisitUpdateCount(acc: Pass, key: string, c: Component, kind: Kind, deviceId: nat,
                         inventory: map<string, RemoteItem>, k: string)
    requires Valid(acc.remaining)
    requires Visit(acc, key, c, kind, deviceId, inventory).Success?
    ensures multiset(Names(Visit(acc, key, c, kind, deviceId, inventory).value.updates))[k]
            == multiset(Names(acc.updates))[k]
               + (if k == key && key in inventory && inventory[key].serial != c.serial then 1 else 0)
  {
    if key in inventory && inventory[key].serial != c.serial {
      NamesSnoc(acc.updates, UpdatePayload(key, c, kind, inventory[key].id));
    }
  }

  /** A pass appends one update payload per observed key whose remote item
      has another serial, and none for any other name. */
  lemma {:induction false} UpdateFieldsUpdateCounts(data: seq<(string, Component)>, kind: Kind, deviceId: nat,
                                                    inventory: map<string, RemoteItem>, acc: Pass, k: string)
    requires Valid(data) && Valid(acc.remaining)
    requires UpdateFields(data, kind, deviceId, inventory, acc).Success?
    ensures multiset(Names(UpdateFields(data, kind, deviceId, inventory, acc).value.updates))[k]
            == multiset(Names(acc.updates))[k] + UpdateCount(data, inventory, k)
    decreases |data|
  {
    if data != [] {
      var k0 := data[0].0;
      SplitFirst(data);
      var next := Visit(acc, k0, data[0].1, kind, deviceId, inventory).value;
      assert UpdateFields(data, kind, deviceId, inventory, acc) == UpdateFields(data[1..], kind, deviceId, inventory, next);
      UpdateFieldsUpdateCounts(data[1..], kind, deviceId, inventory, next, k);
      VisitUpdateCount(acc, k0, data[0].1, kind, deviceId, inventory, k);
      assert UpdateCount(data, inventory, k)
             == UpdateCount(data[1..], inventory, k)
                + (if k == k0 && k0 in inventory && inventory[k0].serial != data[0].1.serial then 1 else 0);
    }
  }

  /** Every update payload a pass appends names an observed key whose remote
      item has another serial, and carries that item's id and no device. */
  lemma {:induction false} UpdateFieldsUpdateShapes(data: seq<(string, Component)>, kind: Kind, deviceId: nat,
                                                    inventory: map<string, RemoteItem>, acc: Pass)
    requires Valid(data) && Valid(acc.remaining)
    requires UpdateFields(data, kind, deviceId, inventory, acc).Success?
    ensures var r := UpdateFields(data, kind, deviceId, inventory, acc).value;
            forall i :: |acc.updates| <= i < |r.updates| ==>
              && r.updates[i].name in Keys(data) && r.updates[i].name in inventory
              && inventory[r.updates[i].name].serial != ToMap(data)[r.updates[i].name].serial
              && r.updates[i] == UpdatePayload(r.updates[i].name, ToMap(data)[r.updates[i].name], kind,
                                               inventory[r.updates[i].name].id)
  {
    if data != [] {
      var k0 := data[0].0;
      SplitFirst(data);
      var next := Visit(acc, k0, data[0].1, kind, deviceId, inventory).value;
      UpdateFieldsUpdateShapes(data[1..], kind, deviceId, inventory, next);
      UpdateFieldsAppends(data[1..], kind, deviceId, inventory, next);
      var r := UpdateFields(data[1..], kind, deviceId, inventory, next).value;
      forall i | |acc.updates| <= i < |r.updates|
        ensures r.updates[i].name in Keys(data) && r.updates[i].name in inventory
        ensures inventory[r.updates[i].name].serial != ToMap(data)[r.updates[i].name].serial
        ensures r.updates[i] == UpdatePayload(r.updates[i].name, ToMap(data)[r.updates[i].name], kind,
                                              inventory[r.updates[i].name].id)
      {
        if i < |next.updates| {
          assert r.updates[i] == next.updates[i];
        } else {
          assert r.updates[i].name in Keys(data[1..]);
        }
      }
    }
  }
}

=== FILE: netbox.dfy ===
/** The records the remote inventory returns, as far as the client reads
    them. Fetching them is the remote API's business; the model takes the
    fetched lists as inputs. */
module Netbox {
  import opened Wrappers

  /** The device found by its serial; only its id and name are read. */
  datatype Device = Device(id: nat, name: string)

  /** An inventory item of the device, fetched with the `autogen` tag filter. */
  datatype RemoteItem = RemoteItem(id: nat, name: string, serial: string, tags: seq<string>)

  /** An interface of the device; NetBox allows an interface without a MAC. */
  datatype RemoteInterface = RemoteInterface(id: nat, name: string, mac: Option<string>)
}

=== FILE: pydict.dfy ===
/**
  A Python `dict` as an association list: entries in insertion order, no key
  twice. Assigning to a present key replaces its value in place; assigning to
  a new key appends it (`PutKeys`); `pop` removes an entry and keeps the order
  of the others (`PopEntries`). `ToMap` is the lookup view used by `in` and `[]`.
 */
module PyDict {
  import opened Wrappers

  /** `list(d.keys())`. */
  function Keys<K, V>(d: seq<(K, V)>): (ks: seq<K>)
    ensures |ks| == |d|
  {
    if d == [] then [] else [d[0].0] + Keys(d[1..])
  }

  /** `list(d.values())`. */
  function Values<K, V>(d: seq<(K, V)>): (vs: seq<V>)
    ensures |vs| == |d|
  {
    if d == [] then [] else [d[0].1] + Values(d[1..])
  }

  /** No key occurs twice: the shape of every Python dict. */
  predicate Valid<K(==), V>(d: seq<(K, V)>) {
    d == [] || (d[0].0 !in Keys(d[1..]) && Valid(d[1..]))
  }

  /** The lookup view of a list of pairs. A later pair overrides an earlier
      one with the same key, which is what `{k: v for ...}` and `dict(pairs)`
      do. */
  function ToMap<K(!new), V>(ps: seq<(K, V)>): (m: map<K, V>)
    ensures forall k :: k in m <==> k in Keys(ps)
  {
    if ps == [] then map[]
    else
      var rest := ToMap(ps[1..]);
      if ps[0].0 in rest then rest else rest[ps[0].0 := ps[0].1]
  }

  /** The value a key maps to is the one of its LAST pair. */
  lemma {:induction false} ToMapLastWins<K(!new), V>(ps: seq<(K, V)>, j: nat)
    requires j < |ps|
    requires ps[j].0 !in Keys(ps[j + 1..])
    ensures ps[j].0 in ToMap(ps) && ToMap(ps)[ps[j].0] == ps[j].1
  {
    if j > 0 {
      assert ps[1..][j..] == ps[j + 1..];
      ToMapLastWins(ps[1..], j - 1);
    }
  }

  /** A key of any of the pairs is a key of the lookup view. */
  lemma {:induction false} ToMapLastWinsAny<K(!new), V>(ps: seq<(K, V)>, j: nat)
    requires j < |ps|
    ensures ps[j].0 in ToMap(ps)
  {
    if j > 0 {
      ToMapLastWinsAny(ps[1..], j - 1);
    }
  }

  /** Appending a pair overrides its key. */
  lemma {:induction false} ToMapSnoc<K(!new), V>(ps: seq<(K, V)>, p: (K, V))
    ensures ToMap(ps + [p]) == ToMap(ps)[p.0 := p.1]
  {
    if ps != [] {
      assert (ps + [p])[1..] == ps[1..] + [p];
      ToMapSnoc(ps[1..], p);
    }
  }

  /** The j-th value is the value of the j-th entry. */
  lemma {:induction false} ValuesAt<K, V>(d: seq<(K, V)>, j: nat)
    requires j < |d|
    ensures Values(d)[j] == d[j].1
  {
    if j > 0 {
      ValuesAt(d[1..], j - 1);
    }
  }

  /** The j-th key is the key of the j-th entry. */
  lemma {:induction false} KeysAt<K, V>(d: seq<(K, V)>, j: nat)
    requires j < |d|
    ensures Keys(d)[j] == d[j].0
  {
    if j > 0 {
      KeysAt(d[1..], j - 1);
    }
  }

  /** The position of the first pair with key `k`, or `|ps|` when there is
      none. */
  function FirstIndex<K(==), V>(ps: seq<(K, V)>, k: K): (r: nat)
    ensures r <= |ps|
    ensures r < |ps| ==> ps[r].0 == k
    ensures forall j :: 0 <= j < r ==> ps[j].0 != k
  {
    if ps == [] then 0
    else if ps[0].0 == k then 0
    else 1 + FirstIndex(ps[1..], k)
  }

  /** Every entry of a dict is what its key maps to. */
  lemma {:induction false} EntryInMap<K(!new), V>(d: seq<(K, V)>, j: nat)
    requires Valid(d) && j < |d|
    ensures d[j].0 in ToMap(d) && ToMap(d)[d[j].0] == d[j].1
  {
    SplitFirst(d);
    if j > 0 {
      EntryInMap(d[1..], j - 1);
      assert d[1..][j - 1] == d[j];
    }
  }

  /** `values()` lists exactly what the keys map to. */
  lemma {:induction false} ValuesOfMap<K(!new), V>(d: seq<(K, V)>, x: V)
    requires Valid(d)
    ensures x in Values(d) <==> exists k :: k in ToMap(d) && ToMap(d)[k] == x
  {
    if d != [] {
      ValuesOfMap(d[1..], x);
      var k0 := d[0].0;
      assert Values(d) == [d[0].1] + Values(d[1..]);
      assert ToMap(d) == ToMap(d[1..])[k0 := d[0].1];
      if x in Values(d) {
        if x == d[0].1 {
          assert k0 in ToMap(d) && ToMap(d)[k0] == x;
        } else {
          var k :| k in ToMap(d[1..]) && ToMap(d[1..])[k] == x;
          assert k != k0 && ToMap(d)[k] == x;
        }
      }
      if exists k :: k in ToMap(d) && ToMap(d)[k] == x {
        var k :| k in ToMap(d) && ToMap(d)[k] == x;
        if k != k0 {
          assert k in ToMap(d[1..]) && ToMap(d[1..])[k] == x;
        }
      }
    }
  }

  /** Putting an entry with a fresh key in front of a dict. */
  lemma Prepend<K(!new), V>(e: (K, V), rest: seq<(K, V)>)
    requires Valid(rest) && e.0 !in Keys(rest)
    ensures Valid([e] + rest)
    ensures ToMap([e] + rest) == ToMap(rest)[e.0 := e.1]
  {
    assert ([e] + rest)[1..] == rest;
  }

  /** A non-empty dict is its first entry followed by a dict without that key. */
  lemma SplitFirst<K(!new), V>(d: seq<(K, V)>)
    requires Valid(d) && d != []
    ensures Valid(d[1..]) && d[0].0 !in ToMap(d[1..])
    ensures ToMap(d) == ToMap(d[1..])[d[0].0 := d[0].1]
  {
  }

  /** Every value the lookup view holds comes from one of the pairs. */
  lemma {:induction false} ToMapFromPair<K(!new), V>(ps: seq<(K, V)>, k: K)
    requires k in ToMap(ps)
    ensures exists i :: 0 <= i < |ps| && ps[i] == (k, ToMap(ps)[k])
  {
    if ps[0].0 == k && k !in ToMap(ps[1..]) {
      assert ps[0] == (k, ToMap(ps)[k]);
    } else {
      ToMapFromPair(ps[1..], k);
      var i :| 0 <= i < |ps[1..]| && ps[1..][i] == (k, ToMap(ps[1..])[k]);
      assert ps[i + 1] == (k, ToMap(ps)[k]);
    }
  }

  /** The value a key maps to comes from its last pair: no later pair has
      that key. */
  lemma {:induction false} ToMapIsLast<K(!new), V>(ps: seq<(K, V)>, k: K)
    requires k in ToMap(ps)
    ensures exists i :: 0 <= i < |ps| && ps[i] == (k, ToMap(ps)[k]) && k !in Keys(ps[i + 1..])
  {
    if ps[0].0 == k && k !in ToMap(ps[1..]) {
      assert ps[0] == (k, ToMap(ps)[k]) && ps[1..] == ps[0 + 1..];
    } else {
      ToMapIsLast(ps[1..], k);
      var i :| 0 <= i < |ps[1..]| && ps[1..][i] == (k, ToMap(ps[1..])[k]) && k !in Keys(ps[1..][i + 1..]);
      assert ps[1..][i + 1..] == ps[i + 2..];
      assert ps[i + 1] == (k, ToMap(ps)[k]);
    }
  }

  /** The pair that sets a key's value is followed by no pair with that key. */
  lemma LastOfKey<K(!new), V>(ps: seq<(K, V)>, k: K)
    requires k in ToMap(ps)
    ensures exists j :: && 0 <= j < |ps| && ps[j] == (k, ToMap(ps)[k])
                        && forall i :: j < i < |ps| ==> ps[i].0 != k
  {
    ToMapIsLast(ps, k);
    var j :| 0 <= j < |ps| && ps[j] == (k, ToMap(ps)[k]) && k !in Keys(ps[j + 1..]);
    var rest := ps[j + 1..];
    forall i | j < i < |ps|
      ensures ps[i].0 != k
    {
      assert rest[i - j - 1] == ps[i];
      ToMapLastWinsAny(rest, i - j - 1);
      assert ps[i].0 in Keys(rest);
    }
  }

  /** The keys of an entry followed by a list. */
  lemma KeysCons<K, V>(e: (K, V), rest: seq<(K, V)>)
    ensures Keys([e] + rest) == [e.0] + Keys(rest)
  {
    assert ([e] + rest)[1..] == rest;
  }

  /** `d[k] = v`. */
  function Put<K(==, !new), V>(d: seq<(K, V)>, k: K, v: V): (r: seq<(K, V)>)
    requires Valid(d)
    ensures Valid(r)
    ensures ToMap(r) == ToMap(d)[k := v]
  {
    if d == [] then [(k, v)]
    else if d[0].0 == k then
      Prepend((k, v), d[1..]);
      [(k, v)] + d[1..]
    else
      var tail := Put(d[1..], k, v);
      assert d[0].0 !in ToMap(tail);
      Prepend(d[0], tail);
      [d[0]] + tail
  }

  /** Assigning to a present key keeps its place in the order; assigning to
      a new key puts it last. */
  lemma {:induction false} PutKeys<K(!new), V>(d: seq<(K, V)>, k: K, v: V)
    requires Valid(d)
    ensures Keys(Put(d, k, v)) == if k in Keys(d) then Keys(d) else Keys(d) + [k]
  {
    if d != [] {
      KeysCons(d[0], d[1..]);
      assert [d[0]] + d[1..] == d;
      if d[0].0 == k {
        KeysCons((k, v), d[1..]);
      } else {
        PutKeys(d[1..], k, v);
        KeysCons(d[0], Put(d[1..], k, v));
      }
    }
  }

  /** Removing one key commutes with updating another. */
  lemma RemoveUpdateCommute<K, V>(m: map<K, V>, a: K, va: V, k: K)
    requires a != k
    ensures m[a := va] - {k} == (m - {k})[a := va]
  {
  }

  /** `d.pop(k)`: the removed value and the rest of the dict, or `None`
      where Python raises `KeyError`. */
  function Pop<K(==, !new), V>(d: seq<(K, V)>, k: K): (r: Option<(V, seq<(K, V)>)>)
    requires Valid(d)
    ensures r.None? <==> k !in ToMap(d)
    ensures r.Some? ==> r.value.0 == ToMap(d)[k]
    ensures r.Some? ==> Valid(r.value.1) && ToMap(r.value.1) == ToMap(d) - {k}
  {
    if d == [] then None
    else if d[0].0 == k then Some((d[0].1, d[1..]))
    else
      var tail := Pop(d[1..], k);
      if tail.None? then None
      else
        var rest := tail.value.1;
        assert d[0].0 !in ToMap(rest);
        Prepend(d[0], rest);
        RemoveUpdateCommute(ToMap(d[1..]), d[0].0, d[0].1, k);
        Some((tail.value.0, [d[0]] + rest))
  }

  /** The position of the entry `pop` takes out: the one with key `k`, with
      the others left in their order around it. */
  lemma {:induction false} PopIndex<K(!new), V>(d: seq<(K, V)>, k: K) returns (i: nat)
    requires Valid(d) && Pop(d, k).Some?
    ensures i < |d| && d[i] == (k, Pop(d, k).value.0)
    ensures Pop(d, k).value.1 == d[..i] + d[i + 1..]
  {
    if d[0].0 == k {
      i := 0;
    } else {
      var tl := d[1..];
      var j := PopIndex(tl, k);
      i := j + 1;
      var rest := Pop(tl, k).value.1;
      assert Pop(d, k).value.1 == [d[0]] + rest;
      assert [d[0]] + (tl[..j] + tl[j + 1..]) == d[..i] + d[i + 1..];
    }
  }

  /** `pop` takes out the one entry with key `k` and leaves the others in
      their order. */
  lemma PopEntries<K(!new), V>(d: seq<(K, V)>, k: K)
    requires Valid(d) && Pop(d, k).Some?
    ensures exists i :: 0 <= i < |d| && d[i] == (k, Pop(d, k).value.0) && Pop(d, k).value.1 == d[..i] + d[i + 1..]
  {
    var i := PopIndex(d, k);
  }

  /** `dict(pairs)`, or a comprehension over `pairs`. */
  function FromPairs<K(==, !new), V>(ps: seq<(K, V)>): (d: seq<(K, V)>)
    ensures Valid(d)
    ensures ToMap(d) == ToMap(ps)
  {
    if ps == [] then []
    else
      var n := |ps| - 1;
      assert ps == ps[..n] + [ps[n]];
      ToMapSnoc(ps[..n], ps[n]);
      Put(FromPairs(ps[..n]), ps[n].0, ps[n].1)
  }

  /** A key occurs among the pairs exactly when its first index is inside
      them. */
  lemma FirstIndexFound<K, V>(ps: seq<(K, V)>, k: K)
    ensures FirstIndex(ps, k) < |ps| <==> k in Keys(ps)
  {
    var r := FirstIndex(ps, k);
    if r < |ps| {
      KeysAt(ps, r);
    }
    if k in Keys(ps) {
      var j :| 0 <= j < |Keys(ps)| && Keys(ps)[j] == k;
      KeysAt(ps, j);
    }
  }

  /** Appending a pair moves no first index inside the earlier pairs, and
      gives a key new to them the appended position. */
  lemma FirstIndexSnoc<K, V>(pre: seq<(K, V)>, last: (K, V), k: K)
    ensures FirstIndex(pre, k) < |pre| ==> FirstIndex(pre + [last], k) == FirstIndex(pre, k)
    ensures FirstIndex(pre, k) == |pre| && last.0 == k ==> FirstIndex(pre + [last], k) == |pre|
  {
    var ps := pre + [last];
    var r := FirstIndex(pre, k);
    var r' := FirstIndex(ps, k);
    assert (r < |pre| || last.0 == k) ==> r' <= r by {
      if r < |pre| {
        assert ps[r].0 == k by {
          assert ps[r] == pre[r];
        }
      } else if last.0 == k {
        assert ps[|pre|].0 == k;
      }
    }
  }

  /** The keys of `dict(pairs)` come in the order in which they first occur
      among the pairs. */
  lemma {:induction false} FromPairsOrder<K(!new), V>(ps: seq<(K, V)>)
    ensures forall a, b :: 0 <= a < b < |Keys(FromPairs(ps))| ==>
              FirstIndex(ps, Keys(FromPairs(ps))[a]) < FirstIndex(ps, Keys(FromPairs(ps))[b]) < |ps|
  {
    if ps != [] {
      var n := |ps| - 1;
      var pre := ps[..n];
      var last := ps[n];
      assert ps == pre + [last];
      var d0 := FromPairs(pre);
      var d := FromPairs(ps);
      assert d == Put(d0, last.0, last.1);
      PutKeys(d0, last.0, last.1);
      FromPairsOrder(pre);
      // A key of the shorter dict first occurs at the same place in both lists.
      forall a | 0 <= a < |Keys(d0)|
        ensures FirstIndex(ps, Keys(d0)[a]) == FirstIndex(pre, Keys(d0)[a]) < n
      {
        var k := Keys(d0)[a];
        assert k in Keys(pre) by {
          assert k in ToMap(d0);
        }
        FirstIndexFound(pre, k);
        FirstIndexSnoc(pre, last, k);
      }
      if last.0 !in Keys(d0) {
        assert last.0 !in Keys(pre) by {
          assert last.0 !in ToMap(d0);
        }
        FirstIndexFound(pre, last.0);
        FirstIndexSnoc(pre, last, last.0);
      }
      var ks := Keys(d);
      forall a, b | 0 <= a < b < |ks|
        ensures FirstIndex(ps, ks[a]) < FirstIndex(ps, ks[b]) < |ps|
      {
        assert ks[a] == Keys(d0)[a];
        if b < |Keys(d0)| {
          assert ks[b] == Keys(d0)[b];
        } else {
          assert ks[b] == last.0;
        }
      }
    }
  }

  /** `{k: f(v) for k, v in d.items()}`: same keys in the same order. */
  function MapValues<K(!new), V, W>(d: seq<(K, V)>, f: V -> W): (r: seq<(K, W)>)
    ensures Keys(r) == Keys(d)
    ensures forall k :: k in ToMap(d) ==> ToMap(r)[k] == f(ToMap(d)[k])
  {
    if d == [] then []
    else
      var tail := MapValues(d[1..], f);
      var r := [(d[0].0, f(d[0].1))] + tail;
      assert r[1..] == tail;
      r
  }

  /** Mapping values keeps a dict a dict. */
  lemma {:induction false} MapValuesValid<K(!new), V, W>(d: seq<(K, V)>, f: V -> W)
    requires Valid(d)
    ensures Valid(MapValues(d, f))
  {
    if d != [] {
      MapValuesValid(d[1..], f);
      assert MapValues(d, f)[1..] == MapValues(d[1..], f);
    }
  }
}

=== FILE: reconcile.dfy ===
/**
  `update_netbox`: the interface pass, then the drive pass and the memory
  pass over one shared remove dict, assembled into the batches the client
  sends. Looking the device up and sending the batches are the remote API's
  business; the device and the fetched lists are inputs, the plan the output.
 */
module Reconcile {
  import opened Wrappers
  import opened PyDict
  import opened Facts
  import opened Netbox
  import opened Inventory
  import opened Interfaces

  /** The parts of the collected payload `update_netbox` reads. `memory` is
      absent when dmidecode listed no memory module. */
  datatype DeviceInfo = DeviceInfo(
    drives: seq<(string, Drive)>,
    interfaces: seq<ObservedInterface>,
    memory: Option<seq<(string, MemoryModule)>>)

  /** The five batches, in the order the client sends them. */
  datatype Plan = Plan(
    interfaceCreates: seq<InterfaceCreate>,
    interfaceUpdates: seq<RemoteInterface>,
    itemCreates: seq<ItemPayload>,
    itemUpdates: seq<ItemPayload>,
    itemDeletes: seq<RemoteItem>)

  /** The pairs of `{i.name: i for i in inventory_items}`. */
  function ItemPairs(items: seq<RemoteItem>): (ps: seq<(string, RemoteItem)>)
    ensures |ps| == |items|
    ensures forall i :: 0 <= i < |items| ==> ps[i] == (items[i].name, items[i])
  {
    seq(|items|, i requires 0 <= i < |items| => (items[i].name, items[i]))
  }

  /** `inventory_dict`: the fetched items by name, a later item winning. */
  function ItemIndex(items: seq<RemoteItem>): (d: seq<(string, RemoteItem)>)
    ensures Valid(d)
  {
    FromPairs(ItemPairs(items))
  }

  /** Every item of the index is a fetched item filed under its own name,
      every fetched item's name is filed, and the item filed under a name
      is the last fetched item with that name. */
  lemma ItemIndexSound(items: seq<RemoteItem>, k: string)
    ensures k in ToMap(ItemIndex(items)) ==>
              ToMap(ItemIndex(items))[k] in items && ToMap(ItemIndex(items))[k].name == k
    ensures (exists i :: 0 <= i < |items| && items[i].name == k) ==> k in ToMap(ItemIndex(items))
    ensures k in ToMap(ItemIndex(items)) ==>
              exists i :: && 0 <= i < |items| && items[i] == ToMap(ItemIndex(items))[k]
                          && forall j :: i < j < |items| ==> items[j].name != k
  {
    if k in ToMap(ItemIndex(items)) {
      ToMapFromPair(ItemPairs(items), k);
      LastOfKey(ItemPairs(items), k);
    }
    if exists i :: 0 <= i < |items| && items[i].name == k {
      var i :| 0 <= i < |items| && items[i].name == k;
      ToMapLastWinsAny(ItemPairs(items), i);
    }
  }

  /** The lookup view of `inventory_dict`. */
  function InventoryDict(items: seq<RemoteItem>): map<string, RemoteItem> {
    ToMap(ItemIndex(items))
  }

  function DriveComponents(drives: seq<(string, Drive)>): seq<(string, Component)> {
    MapValues(drives, DriveComponent)
  }

  function MemoryComponents(memory: seq<(string, MemoryModule)>): seq<(string, Component)> {
    MapValues(memory, MemoryComponent)
  }

  /** The two `update_fields` calls. Reading `device_info["memory"]` raises
      `KeyError` when there is no memory module. */
  function ReconcileItems(drives: seq<(string, Drive)>, memory: Option<seq<(string, MemoryModule)>>,
                          deviceId: nat, items: seq<RemoteItem>): (r: Result<Pass>)
    ensures r.Success? ==> Valid(r.value.remaining)
  {
    var index := ItemIndex(items);
    var inventory := InventoryDict(items);
    match UpdateFields(DriveComponents(drives), DriveKind, deviceId, inventory, Pass([], [], index))
    case Failure(e) => Failure(e)
    case Success(afterDrives) =>
      match memory
      case None => Failure(KeyError("memory"))
      case Some(mem) => UpdateFields(MemoryComponents(mem), MemoryKind, deviceId, inventory, afterDrives)
  }

  /** The interface loop run from the fetched records; returns the walk. */
  function InterfaceWalk(fetched: seq<RemoteInterface>, observed: seq<ObservedInterface>, deviceId: nat): (w: Walk)
    ensures |w.records| == |fetched| && RefsFit(w)
  {
    var start := Walk(fetched, [], []);
    assert RefsFit(start);
    WalkInterfaces(BuildLookup(fetched), deviceId, start, observed)
  }

  /** The update batch holds the records the update list refers to, in
      their final state: a record edited twice is sent twice, both times
      with its last values. */
  function UpdatedRecords(w: Walk): (rs: seq<RemoteInterface>)
    requires RefsFit(w)
    ensures |rs| == |w.updates|
  {
    seq(|w.updates|, n requires 0 <= n < |w.updates| => w.records[w.updates[n]])
  }

  /** `update_netbox` up to the five batch calls. */
  function UpdateNetbox(info: DeviceInfo, device: Device, fetchedInterfaces: seq<RemoteInterface>,
                        fetchedItems: seq<RemoteItem>): (r: Result<Plan>)
  {
    var w := InterfaceWalk(fetchedInterfaces, info.interfaces, device.id);
    match ReconcileItems(info.drives, info.memory, device.id, fetchedItems)
    case Failure(e) => Failure(e)
    case Success(p) => Success(Plan(w.adds, UpdatedRecords(w), p.adds, p.updates, Values(p.remaining)))
  }

  /** Both observed collections are dicts. */
  predicate WellFormed(info: DeviceInfo) {
    Valid(info.drives) && (info.memory.Some? ==> Valid(info.memory.value))
  }

  /** The drive pass starts from a remove dict holding every fetched item,
      so it never fails, and it leaves the items no drive is named after. */
  lemma DrivePass(drives: seq<(string, Drive)>, deviceId: nat, items: seq<RemoteItem>)
    requires Valid(drives)
    ensures var inv := InventoryDict(items);
            var r := UpdateFields(DriveComponents(drives), DriveKind, deviceId, inv, Pass([], [], ItemIndex(items)));
            && r.Success?
            && ToMap(r.value.remaining) == inv - Matched(DriveComponents(drives), inv)
  {
    var inv := InventoryDict(items);
    var d := DriveComponents(drives);
    MapValuesValid(drives, DriveComponent);
    UpdateFieldsFails(d, DriveKind, deviceId, inv, Pass([], [], ItemIndex(items)));
    UpdateFieldsRemaining(d, DriveKind, deviceId, inv, Pass([], [], ItemIndex(items)));
  }

  /** The item passes fail exactly when dmidecode listed no memory module,
      or when a drive key and a memory locator are the same name and a fetched
      item carries it: the memory pass then pops that name a second time, and
      the `except ValueError` around the `pop` does not catch the `KeyError`. */
  lemma ItemPassesFail(info: DeviceInfo, deviceId: nat, items: seq<RemoteItem>)
    requires WellFormed(info)
    ensures ReconcileItems(info.drives, info.memory, deviceId, items).Failure?
            <==> || info.memory.None?
                 || exists k :: k in Keys(info.drives) && k in Keys(info.memory.value) && k in InventoryDict(items)
  {
    DrivePass(info.drives, deviceId, items);
    if info.memory.Some? {
      var inv := InventoryDict(items);
      var d := DriveComponents(info.drives);
      var m := MemoryComponents(info.memory.value);
      MapValuesValid(info.memory.value, MemoryComponent);
      var p1 := UpdateFields(d, DriveKind, deviceId, inv, Pass([], [], ItemIndex(items))).value;
      UpdateFieldsFails(m, MemoryKind, deviceId, inv, p1);
    }
  }

  /** Facts about the two passes of a successful run. */
  lemma ItemPasses(info: DeviceInfo, deviceId: nat, items: seq<RemoteItem>)
    requires WellFormed(info)
    requires ReconcileItems(info.drives, info.memory, deviceId, items).Success?
    ensures info.memory.Some?
    ensures var inv := InventoryDict(items);
            var d := DriveComponents(info.drives);
            var m := MemoryComponents(info.memory.value);
            var p1 := UpdateFields(d, DriveKind, deviceId, inv, Pass([], [], ItemIndex(items)));
            && Valid(d) && Valid(m) && p1.Success?
            && ToMap(p1.value.remaining) == inv - Matched(d, inv)
            && ReconcileItems(info.drives, info.memory, deviceId, items)
               == UpdateFields(m, MemoryKind, deviceId, inv, p1.value)
  {
    DrivePass(info.drives, deviceId, items);
    MapValuesValid(info.drives, DriveComponent);
    MapValuesValid(info.memory.value, MemoryComponent);
  }

  /** What is left of the index once some names are taken out is the
      fetched items filed under the other names. */
  lemma LeftOverItems(items: seq<RemoteItem>, remaining: seq<(string, RemoteItem)>, taken: set<string>, x: RemoteItem)
    requires Valid(remaining) && ToMap(remaining) == InventoryDict(items) - taken
    ensures x in Values(remaining) <==>
              x in items && x.name in InventoryDict(items) && InventoryDict(items)[x.name] == x && x.name !in taken
  {
    var inv := InventoryDict(items);
    var rem := ToMap(remaining);
    ValuesOfMap(remaining, x);
    if x in Values(remaining) {
      var k :| k in rem && rem[k] == x;
      assert k in inv && inv[k] == x && k !in taken;
      ItemIndexSound(items, k);
      assert x.name == k;
    }
    if x.name in inv && inv[x.name] == x && x.name !in taken {
      assert x.name in rem && rem[x.name] == x;
    }
  }

  /** After both passes the remove dict holds the fetched items whose name
      is neither a drive key nor a memory locator. */
  lemma RemainingAfterPasses(info: DeviceInfo, deviceId: nat, items: seq<RemoteItem>)
    requires WellFormed(info)
    requires ReconcileItems(info.drives, info.memory, deviceId, items).Success?
    ensures info.memory.Some?
    ensures var inv := InventoryDict(items);
            var rem := ReconcileItems(info.drives, info.memory, deviceId, items).value.remaining;
            && Valid(rem)
            && ToMap(rem) == inv - (set k | k in Keys(info.drives) + Keys(info.memory.value))
  {
    ItemPasses(info, deviceId, items);
    var inv := InventoryDict(items);
    var d := DriveComponents(info.drives);
    var m := MemoryComponents(info.memory.value);
    var p1 := UpdateFields(d, DriveKind, deviceId, inv, Pass([], [], ItemIndex(items))).value;
    UpdateFieldsRemaining(m, MemoryKind, deviceId, inv, p1);
    var rem := ReconcileItems(info.drives, info.memory, deviceId, items).value.remaining;
    var named := set k | k in Keys(info.drives) + Keys(info.memory.value);
    assert ToMap(rem) == inv - Matched(d, inv) - Matched(m, inv);
    assert Keys(d) == Keys(info.drives) && Keys(m) == Keys(info.memory.value);
    RemoveBoth(inv, Matched(d, inv), Matched(m, inv), named);
  }

  /** Taking two sets of names out of a map is taking out any set that
      agrees with their union on the map's keys. */
  lemma RemoveBoth(inv: map<string, RemoteItem>, a: set<string>, b: set<string>, named: set<string>)
    requires forall k :: k in inv ==> (k in a || k in b <==> k in named)
    ensures inv - a - b == inv - named
  {
  }

  /** The delete batch is exactly the fetched items, each the one filed
      under its name, whose name is neither a drive key nor a memory
      locator; nothing that was not fetched is ever deleted. */
  lemma ItemDeletes(info: DeviceInfo, deviceId: nat, items: seq<RemoteItem>, x: RemoteItem)
    requires WellFormed(info)
    requires ReconcileItems(info.drives, info.memory, deviceId, items).Success?
    ensures info.memory.Some?
    ensures var inv := InventoryDict(items);
            x in Values(ReconcileItems(info.drives, info.memory, deviceId, items).value.remaining)
            <==> && x in items
                 && x.name in inv && inv[x.name] == x
                 && x.name !in Keys(info.drives) && x.name !in Keys(info.memory.value)
  {
    RemainingAfterPasses(info, deviceId, items);
    var rem := ReconcileItems(info.drives, info.memory, deviceId, items).value.remaining;
    var named := set k | k in Keys(info.drives) + Keys(info.memory.value);
    LeftOverItems(items, rem, named, x);
  }

  /** Per name, the create batch holds one payload for each pass in which
      the name is observed and no fetched item carries it, and the update
      batch one for each pass in which a fetched item carries it with
      another serial. */
  lemma ItemCounts(info: DeviceInfo, deviceId: nat, items: seq<RemoteItem>, k: string)
    requires WellFormed(info)
    requires ReconcileItems(info.drives, info.memory, deviceId, items).Success?
    ensures info.memory.Some?
    ensures var r := ReconcileItems(info.drives, info.memory, deviceId, items).value;
            var inv := InventoryDict(items);
            var drives := info.drives;
            var mem := info.memory.value;
            && multiset(Names(r.adds))[k]
               == (if k in Keys(drives) && k !in inv then 1 else 0) + (if k in Keys(mem) && k !in inv then 1 else 0)
            && multiset(Names(r.updates))[k]
               == (if k in Keys(drives) && k in inv && inv[k].serial != ToMap(drives)[k].serial then 1 else 0)
                  + (if k in Keys(mem) && k in inv && inv[k].serial != ToMap(mem)[k].serial then 1 else 0)
  {
    ItemPasses(info, deviceId, items);
    var inv := InventoryDict(items);
    var d := DriveComponents(info.drives);
    var m := MemoryComponents(info.memory.value);
    var start := Pass([], [], ItemIndex(items));
    var p1 := UpdateFields(d, DriveKind, deviceId, inv, start).value;
    UpdateFieldsAddCounts(d, DriveKind, deviceId, inv, start, k);
    UpdateFieldsAddCounts(m, MemoryKind, deviceId, inv, p1, k);
    UpdateFieldsUpdateCounts(d, DriveKind, deviceId, inv, start, k);
    UpdateFieldsUpdateCounts(m, MemoryKind, deviceId, inv, p1, k);
  }

  /** Each item create is the create payload of a drive or a memory module
      no fetched item is named after. */
  lemma ItemCreates(info: DeviceInfo, deviceId: nat, items: seq<RemoteItem>)
    requires WellFormed(info)
    requires ReconcileItems(info.drives, info.memory, deviceId, items).Success?
    ensures info.memory.Some?
    ensures var r := ReconcileItems(info.drives, info.memory, deviceId, items).value;
            var inv := InventoryDict(items);
            var drives := info.drives;
            var mem := info.memory.value;
            forall i :: 0 <= i < |r.adds| ==>
              var p := r.adds[i];
              && p.name !in inv
              && (|| (p.name in Keys(drives)
                      && p == CreatePayload(p.name, DriveComponent(ToMap(drives)[p.name]), DriveKind, deviceId))
                  || (p.name in Keys(mem)
                      && p == CreatePayload(p.name, MemoryComponent(ToMap(mem)[p.name]), MemoryKind, deviceId)))
  {
    ItemPasses(info, deviceId, items);
    var inv := InventoryDict(items);
    var d := DriveComponents(info.drives);
    var m := MemoryComponents(info.memory.value);
    var start := Pass([], [], ItemIndex(items));
    var p1 := UpdateFields(d, DriveKind, deviceId, inv, start).value;
    var p2 := UpdateFields(m, MemoryKind, deviceId, inv, p1).value;
    UpdateFieldsAddShapes(d, DriveKind, deviceId, inv, start);
    UpdateFieldsAddShapes(m, MemoryKind, deviceId, inv, p1);
    UpdateFieldsAppends(m, MemoryKind, deviceId, inv, p1);
    forall i | 0 <= i < |p1.adds|
      ensures p2.adds[i] == p1.adds[i]
    {
    }
  }

  /** Each item update is the update payload, with the fetched item's id, of
      a drive or memory module whose fetched namesake has another serial. */
  lemma ItemUpdates(info: DeviceInfo, deviceId: nat, items: seq<RemoteItem>)
    requires WellFormed(info)
    requires ReconcileItems(info.drives, info.memory, deviceId, items).Success?
    ensures info.memory.Some?
    ensures var r := ReconcileItems(info.drives, info.memory, deviceId, items).value;
            var inv := InventoryDict(items);
            var drives := info.drives;
            var mem := info.memory.value;
            forall i :: 0 <= i < |r.updates| ==>
              var p := r.updates[i];
              && p.name in inv
              && (|| (p.name in Keys(drives) && inv[p.name].serial != ToMap(drives)[p.name].serial
                      && p == UpdatePayload(p.name, DriveComponent(ToMap(drives)[p.name]), DriveKind, inv[p.name].id))
                  || (p.name in Keys(mem) && inv[p.name].serial != ToMap(mem)[p.name].serial
                      && p == UpdatePayload(p.name, MemoryComponent(ToMap(mem)[p.name]), MemoryKind, inv[p.name].id)))
  {
    ItemPasses(info, deviceId, items);
    var inv := InventoryDict(items);
    var d := DriveComponents(info.drives);
    var m := MemoryComponents(info.memory.value);
    var start := Pass([], [], ItemIndex(items));
    var p1 := UpdateFields(d, DriveKind, deviceId, inv, start).value;
    var p2 := UpdateFields(m, MemoryKind, deviceId, inv, p1).value;
    UpdateFieldsUpdateShapes(d, DriveKind, deviceId, inv, start);
    UpdateFieldsUpdateShapes(m, MemoryKind, deviceId, inv, p1);
    UpdateFieldsAppends(m, MemoryKind, deviceId, inv, p1);
    forall i | 0 <= i < |p1.updates|
      ensures p2.updates[i] == p1.updates[i]
    {
    }
  }

  /** No name is both in the item create batch and in the item update batch. */
  lemma NeverCreatedAndUpdated(info: DeviceInfo, deviceId: nat, items: seq<RemoteItem>)
    requires WellFormed(info)
    requires ReconcileItems(info.drives, info.memory, deviceId, items).Success?
    ensures var r := ReconcileItems(info.drives, info.memory, deviceId, items).value;
            forall i, j :: 0 <= i < |r.adds| && 0 <= j < |r.updates| ==> r.adds[i].name != r.updates[j].name
  {
    ItemCreates(info, deviceId, items);
    ItemUpdates(info, deviceId, items);
  }

  /** The first name of a non-empty payload list occurs in it. */
  lemma FirstNameCounted(ps: seq<ItemPayload>)
    ensures ps != [] ==> multiset(Names(ps))[ps[0].name] > 0
  {
    if ps != [] {
      assert Names(ps)[0] == ps[0].name;
    }
  }

  /** When every fetched item is named after a drive key or a memory
      locator, both passes pop every name and the remove dict ends empty:
      the delete batch is empty. */
  lemma AllObservedDeletesNothing(info: DeviceInfo, deviceId: nat, items: seq<RemoteItem>)
    requires WellFormed(info)
    requires ReconcileItems(info.drives, info.memory, deviceId, items).Success?
    requires forall k :: k in InventoryDict(items) ==>
               k in Keys(info.drives) || (info.memory.Some? && k in Keys(info.memory.value))
    ensures ReconcileItems(info.drives, info.memory, deviceId, items).value.remaining == []
  {
    var rem := ReconcileItems(info.drives, info.memory, deviceId, items).value.remaining;
    if rem != [] {
      assert Values(rem)[0] == rem[0].1;
      ItemDeletes(info, deviceId, items, rem[0].1);
      assert false;
    }
  }

  /** Re-running on hardware NetBox already holds: when the drive keys and
      memory locators are distinct and every observed name has a fetched
      namesake with the same serial, the passes succeed and create and update
      nothing. */
  lemma RerunItems(info: DeviceInfo, deviceId: nat, items: seq<RemoteItem>)
    requires WellFormed(info) && info.memory.Some?
    requires forall k :: k in Keys(info.drives) ==> k !in Keys(info.memory.value)
    requires forall k :: k in Keys(info.drives) ==>
               k in InventoryDict(items) && InventoryDict(items)[k].serial == ToMap(info.drives)[k].serial
    requires forall k :: k in Keys(info.memory.value) ==>
               k in InventoryDict(items) && InventoryDict(items)[k].serial == ToMap(info.memory.value)[k].serial
    ensures ReconcileItems(info.drives, info.memory, deviceId, items).Success?
    ensures ReconcileItems(info.drives, info.memory, deviceId, items).value.adds == []
    ensures ReconcileItems(info.drives, info.memory, deviceId, items).value.updates == []
  {
    ItemPassesFail(info, deviceId, items);
    var r := ReconcileItems(info.drives, info.memory, deviceId, items).value;
    if r.adds != [] {
      ItemCounts(info, deviceId, items, r.adds[0].name);
      FirstNameCounted(r.adds);
    }
    if r.updates != [] {
      ItemCounts(info, deviceId, items, r.updates[0].name);
      FirstNameCounted(r.updates);
    }
  }

  /** `rec` is fetched record `j`, with its id, carrying the name and
      upper-cased MAC of the last observed interface that resolved to it. */
  predicate LastWrite(l: Lookup, fetched: seq<RemoteInterface>, observed: seq<ObservedInterface>,
                      j: int, rec: RemoteInterface)
  {
    && 0 <= j < |fetched|
    && LastHit(l, observed, j).Some?
    && var o := LastHit(l, observed, j).value;
       && o in observed
       && Candidate(l, Upper(o.address), o.ifname) == Some(j)
       && rec == RemoteInterface(fetched[j].id, o.ifname, Some(Upper(o.address)))
  }

  /** The interface update batch: its references are exactly
      `ExpectedUpdates`, every record the loop changed is among them, and
      every entry is the final state of a fetched record some observed
      interface resolved to. */
  lemma InterfaceUpdates(l: Lookup, fetched: seq<RemoteInterface>, observed: seq<ObservedInterface>, deviceId: nat)
    requires Fits(l, |fetched|)
    ensures var w := WalkInterfaces(l, deviceId, Walk(fetched, [], []), observed);
            && RefsFit(w)
            && w.updates == ExpectedUpdates(l, fetched, observed)
            && (forall j :: 0 <= j < |fetched| && w.records[j] != fetched[j] ==> j in w.updates)
            && forall n :: 0 <= n < |w.updates| ==> LastWrite(l, fetched, observed, w.updates[n], UpdatedRecords(w)[n])
  {
    var start := Walk(fetched, [], []);
    assert RefsFit(start);
    var w := WalkInterfaces(l, deviceId, start, observed);
    WalkUpdates(l, deviceId, fetched, observed);
    WalkUpdatesAreCandidates(l, deviceId, start, observed);
    forall j | 0 <= j < |fetched| && w.records[j] != fetched[j]
      ensures j in w.updates
    {
      WalkChangedIsUpdated(l, deviceId, start, observed, j);
      assert w.updates[|start.updates|..] == w.updates;
    }
    forall n | 0 <= n < |w.updates|
      ensures LastWrite(l, fetched, observed, w.updates[n], UpdatedRecords(w)[n])
    {
      var j := w.updates[n];
      LastHitFound(l, observed, j);
      WalkFinalRecords(l, deviceId, start, observed, j);
    }
  }

  /** Every MAC the client sends, in an interface create or an updated
      record, is already upper case. */
  lemma InterfaceMacsUpperCase(l: Lookup, fetched: seq<RemoteInterface>, observed: seq<ObservedInterface>, deviceId: nat)
    requires Fits(l, |fetched|)
    ensures var w := WalkInterfaces(l, deviceId, Walk(fetched, [], []), observed);
            && RefsFit(w)
            && (forall i :: 0 <= i < |w.adds| ==> Upper(w.adds[i].macAddress) == w.adds[i].macAddress)
            && (forall n :: 0 <= n < |w.updates| ==>
                  UpdatedRecords(w)[n].mac.Some? && Upper(UpdatedRecords(w)[n].mac.value) == UpdatedRecords(w)[n].mac.value)
  {
    var start := Walk(fetched, [], []);
    var w := WalkInterfaces(l, deviceId, start, observed);
    WalkAdds(l, deviceId, start, observed);
    InterfaceUpdates(l, fetched, observed, deviceId);
    forall i | 0 <= i < |w.adds|
      ensures Upper(w.adds[i].macAddress) == w.adds[i].macAddress
    {
      CreatesAreUnmatched(l, deviceId, observed, w.adds[i]);
      var o :| o in observed && Candidate(l, Upper(o.address), o.ifname).None? && w.adds[i] == CreateFor(deviceId, o);
      UpperIsCanonical(o.address);
    }
    forall n | 0 <= n < |w.updates|
      ensures UpdatedRecords(w)[n].mac.Some? && Upper(UpdatedRecords(w)[n].mac.value) == UpdatedRecords(w)[n].mac.value
    {
      assert LastWrite(l, fetched, observed, w.updates[n], UpdatedRecords(w)[n]);
      UpperIsCanonical(LastHit(l, observed, w.updates[n]).value.address);
    }
  }

  /** A run fails exactly when the item passes do, and a successful run's
      batches are those of the interface walk over the fetched interfaces and
      of the item passes. */
  lemma UpdateNetboxPlan(info: DeviceInfo, device: Device, fetchedInterfaces: seq<RemoteInterface>,
                         fetchedItems: seq<RemoteItem>)
    ensures var r := UpdateNetbox(info, device, fetchedInterfaces, fetchedItems);
            var items := ReconcileItems(info.drives, info.memory, device.id, fetchedItems);
            var w := InterfaceWalk(fetchedInterfaces, info.interfaces, device.id);
            && (r.Failure? <==> items.Failure?)
            && (r.Success? ==>
                  && r.value.interfaceCreates == w.adds
                  && r.value.interfaceUpdates == UpdatedRecords(w)
                  && r.value.itemCreates == items.value.adds
                  && r.value.itemUpdates == items.value.updates
                  && r.value.itemDeletes == Values(items.value.remaining))
  {
  }

  /** A run fails exactly when dmidecode listed no memory module, or when a
      drive key and a memory locator are the same name and a fetched item
      carries it. */
  lemma UpdateNetboxFails(info: DeviceInfo, device: Device, fetchedInterfaces: seq<RemoteInterface>,
                          fetchedItems: seq<RemoteItem>)
    requires WellFormed(info)
    ensures UpdateNetbox(info, device, fetchedInterfaces, fetchedItems).Failure?
            <==> || info.memory.None?
                 || exists k :: k in Keys(info.drives) && k in Keys(info.memory.value) && k in InventoryDict(fetchedItems)
  {
    UpdateNetboxPlan(info, device, fetchedInterfaces, fetchedItems);
    ItemPassesFail(info, device.id, fetchedItems);
  }

  /** Re-running on a machine NetBox already describes sends nothing: when
      the drive keys and memory locators are distinct, every observed name
      has a fetched namesake with the same serial, and every observed
      interface is already in the record it resolves to, the run succeeds
      with empty create and update batches; and when moreover every fetched
      item is still observed, the delete batch is empty too. */
  lemma UpdateNetboxRerun(info: DeviceInfo, device: Device, fetchedInterfaces: seq<RemoteInterface>,
                          fetchedItems: seq<RemoteItem>)
    requires WellFormed(info) && info.memory.Some?
    requires forall k :: k in Keys(info.drives) ==> k !in Keys(info.memory.value)
    requires InSync(BuildLookup(fetchedInterfaces), fetchedInterfaces, info.interfaces)
    requires forall k :: k in Keys(info.drives) ==>
               k in InventoryDict(fetchedItems) && InventoryDict(fetchedItems)[k].serial == ToMap(info.drives)[k].serial
    requires forall k :: k in Keys(info.memory.value) ==>
               k in InventoryDict(fetchedItems) && InventoryDict(fetchedItems)[k].serial == ToMap(info.memory.value)[k].serial
    ensures UpdateNetbox(info, device, fetchedInterfaces, fetchedItems).Success?
    ensures var plan := UpdateNetbox(info, device, fetchedInterfaces, fetchedItems).value;
            && plan.interfaceCreates == [] && plan.interfaceUpdates == []
            && plan.itemCreates == [] && plan.itemUpdates == []
    ensures (forall k :: k in InventoryDict(fetchedItems) ==> k in Keys(info.drives) || k in Keys(info.memory.value))
            ==> UpdateNetbox(info, device, fetchedInterfaces, fetchedItems).value.itemDeletes == []
  {
    UpdateNetboxPlan(info, device, fetchedInterfaces, fetchedItems);
    WalkInSyncIsNoOp(BuildLookup(fetchedInterfaces), device.id, Walk(fetchedInterfaces, [], []), info.interfaces);
    RerunItems(info, device.id, fetchedItems);
    if forall k :: k in InventoryDict(fetchedItems) ==> k in Keys(info.drives) || k in Keys(info.memory.value) {
      AllObservedDeletesNothing(info, device.id, fetchedItems);
    }
  }
}

=== FILE: scenarios.dfy ===
/**
  Worked runs of the reconciliation on small machines.
 */
module Scenarios {
  import opened Wrappers
  import opened PyDict
  import opened Facts
  import opened Netbox
  import opened Inventory
  import opened Interfaces
  import opened Reconcile
  import opened Dmi

  const Host := Device(7, "node-1")
  const Disk := Drive("/dev/sda", "Unknown", "S1", 1000, PowerOnTime(10, 0))
  const Dimm := MemoryModule("16 GB", "3200 MT/s", "M1", "S2", "16 GB - 3200 MT/s")

  /** A drive key equal to a memory locator that NetBox already knows makes
      the memory pass pop that name a second time. */
  lemma SharedKeyCrashes()
    ensures UpdateNetbox(DeviceInfo([("A", Disk)], [], Some([("A", Dimm)])), Host, [],
                         [RemoteItem(1, "A", "S1", ["autogen", "drive"])])
            == Failure(KeyError("A"))
  {
    var item := RemoteItem(1, "A", "S1", ["autogen", "drive"]);
    var items := [item];
    assert ItemPairs(items) == [("A", item)];
    var index := ItemIndex(items);
    assert ToMap(index) == map["A" := item];
    var inv := InventoryDict(items);
    var d := DriveComponents([("A", Disk)]);
    assert d == [("A", DriveComponent(Disk))];
    var v := Visit(Pass([], [], index), "A", DriveComponent(Disk), DriveKind, Host.id, inv);
    assert v.Success? && ToMap(v.value.remaining) == map[];
    var p1 := UpdateFields(d, DriveKind, Host.id, inv, Pass([], [], index));
    assert d[0] == ("A", DriveComponent(Disk)) && d[1..] == [];
    assert p1 == UpdateFields([], DriveKind, Host.id, inv, v.value);
    var m := MemoryComponents([("A", Dimm)]);
    assert m == [("A", MemoryComponent(Dimm))];
    assert Visit(p1.value, "A", MemoryComponent(Dimm), MemoryKind, Host.id, inv) == Failure(KeyError("A"));
    assert m[0] == ("A", MemoryComponent(Dimm));
    assert UpdateFields(m, MemoryKind, Host.id, inv, p1.value) == Failure(KeyError("A"));
  }

  /** A fetched item filed as a drive is matched by the memory module of the
      same name: its serial is compared and it is not deleted. */
  lemma CrossKindMatch()
    ensures UpdateNetbox(DeviceInfo([], [], Some([("A", Dimm)])), Host, [],
                         [RemoteItem(1, "A", "S9", ["autogen", "drive"])])
            == Success(Plan([], [], [], [UpdatePayload("A", MemoryComponent(Dimm), MemoryKind, 1)], []))
  {
    var item := RemoteItem(1, "A", "S9", ["autogen", "drive"]);
    var items := [item];
    assert ItemPairs(items) == [("A", item)];
    var index := ItemIndex(items);
    assert ToMap(index) == map["A" := item];
    var inv := InventoryDict(items);
    var p1 := UpdateFields(DriveComponents([]), DriveKind, Host.id, inv, Pass([], [], index));
    assert p1 == Success(Pass([], [], index));
    var m := MemoryComponents([("A", Dimm)]);
    assert m == [("A", MemoryComponent(Dimm))];
    assert m[0] == ("A", MemoryComponent(Dimm)) && m[1..] == [];
    var v := Visit(p1.value, "A", MemoryComponent(Dimm), MemoryKind, Host.id, inv);
    assert v.Success? && ToMap(v.value.remaining) == map[];
    assert v.value.remaining == [];
    assert v.value == Pass([], [UpdatePayload("A", MemoryComponent(Dimm), MemoryKind, 1)], []);
    assert UpdateFields(m, MemoryKind, Host.id, inv, p1.value) == UpdateFields([], MemoryKind, Host.id, inv, v.value);
    assert InterfaceWalk([], [], Host.id) == Walk([], [], []);
  }

  /** A board whose system section carries the placeholder serial and which
      has no baseboard section ends with no serial at all, and no error. */
  lemma PlaceholderWithoutBaseboard()
    ensures var r := ParseDmiInfo([Section(1, map["serial_number" := PlaceholderSerial, "uuid" := "u-1"])]);
            r.Success? && r.value.serial == None && r.value.memory == None
  {
    var sec := Section(1, map["serial_number" := PlaceholderSerial, "uuid" := "u-1"]);
    var start := DmiState(map[], [], None, None);
    assert VisitSections(start, [sec]) == VisitSections(VisitSection(start, sec).value, []);
  }

  /** A NIC renamed by the OS (`eth0` to `eno1`) is found by its MAC, which
      NetBox stores upper case and `ip` reports lower case: the fetched
      record is renamed in place and sent as an update, and no interface is
      created. */
  lemma RenamedInterfaceFoundByMac()
    ensures InterfaceWalk([RemoteInterface(5, "eth0", Some("AA:BB"))], [ObservedInterface("eno1", "aa:bb")], Host.id)
            == Walk([RemoteInterface(5, "eno1", Some("AA:BB"))], [], [0])
  {
    var fetched := [RemoteInterface(5, "eth0", Some("AA:BB"))];
    var o := ObservedInterface("eno1", "aa:bb");
    var mac := Upper(o.address);
    assert mac == "AA:BB" by {
      assert UpperChar('a') == 'A' && UpperChar('b') == 'B' && UpperChar(':') == ':';
    }
    assert Kept(fetched, 0);
    MacIndexComplete(fetched, Some(mac));
    var l := BuildLookup(fetched);
    assert Candidate(l, mac, o.ifname) == Some(0);
    var start := Walk(fetched, [], []);
    assert [o][1..] == [];
    assert [o][0] == o;
    var next := Step(l, Host.id, start, o);
    assert next == Walk([RemoteInterface(5, "eno1", Some("AA:BB"))], [], [0]);
    assert WalkInterfaces(l, Host.id, start, [o]) == WalkInterfaces(l, Host.id, next, []);
  }

  /** NetBox holds `eno1` and then `bond0`, both with MAC `AA:BB`: the MAC
      index picks `bond0`, whose name entered `interfaces_dict` later. */
  lemma SharedMacPicksBond()
    ensures Candidate(BuildLookup([RemoteInterface(1, "eno1", Some("AA:BB")), RemoteInterface(2, "bond0", Some("AA:BB"))]),
                      "AA:BB", "eno1") == Some(1)
  {
    var fetched := [RemoteInterface(1, "eno1", Some("AA:BB")), RemoteInterface(2, "bond0", Some("AA:BB"))];
    assert Kept(fetched, 1);
    MacIndexComplete(fetched, Some("AA:BB"));
    var p := BuildLookup(fetched).byMac[Some("AA:BB")];
    assert FirstSeen(fetched, "bond0") == 1;
    assert FirstSeen(fetched, "eno1") == 0;
  }

  /** One step of the interface loop over the records above, for any lookup
      whose MAC entry for `AA:BB` points at `bond0`. */
  lemma SharedMacStep(l: Lookup)
    requires Fits(l, 2) && Candidate(l, "AA:BB", "eno1") == Some(1)
    ensures WalkInterfaces(l, Host.id, Walk([RemoteInterface(1, "eno1", Some("AA:BB")), RemoteInterface(2, "bond0", Some("AA:BB"))], [], []),
                           [ObservedInterface("eno1", "aa:bb")])
            == Walk([RemoteInterface(1, "eno1", Some("AA:BB")), RemoteInterface(2, "eno1", Some("AA:BB"))], [], [1])
  {
    var o := ObservedInterface("eno1", "aa:bb");
    assert Upper(o.address) == "AA:BB" by {
      assert UpperChar('a') == 'A' && UpperChar('b') == 'B' && UpperChar(':') == ':';
    }
    var start := Walk([RemoteInterface(1, "eno1", Some("AA:BB")), RemoteInterface(2, "bond0", Some("AA:BB"))], [], []);
    assert [o][1..] == [];
    assert [o][0] == o;
    var next := Step(l, Host.id, start, o);
    var renamed := [RemoteInterface(1, "eno1", Some("AA:BB")), RemoteInterface(2, "eno1", Some("AA:BB"))];
    assert next.records == renamed by {
      assert next.records[1] == renamed[1];
      assert next.records[0] == renamed[0];
    }
    assert WalkInterfaces(l, Host.id, start, [o]) == WalkInterfaces(l, Host.id, next, []);
  }

  /** A bond sharing its NIC's MAC: with the records above, `ip` reports
      `eno1` with `aa:bb`. The MAC wins, so `bond0` is renamed to `eno1` and
      sent as an update, while the `eno1` record is left alone. */
  lemma SharedMacRenamesLaterName()
    ensures InterfaceWalk([RemoteInterface(1, "eno1", Some("AA:BB")), RemoteInterface(2, "bond0", Some("AA:BB"))],
                          [ObservedInterface("eno1", "aa:bb")], Host.id)
            == Walk([RemoteInterface(1, "eno1", Some("AA:BB")), RemoteInterface(2, "eno1", Some("AA:BB"))], [], [1])
  {
    SharedMacPicksBond();
    SharedMacStep(BuildLookup([RemoteInterface(1, "eno1", Some("AA:BB")), RemoteInterface(2, "bond0", Some("AA:BB"))]));
  }

  /** Two fetched items named `A`, and a machine whose only component is
      memory `B`: `inventory_dict` keeps the later item, so that one goes
      into the delete batch and the earlier one is neither updated nor
      deleted. */
  lemma ShadowedItemNeverDeleted()
    ensures var r := UpdateNetbox(DeviceInfo([], [], Some([("B", Dimm)])), Host, [],
                                  [RemoteItem(1, "A", "S0", ["autogen"]), RemoteItem(2, "A", "S0", ["autogen"])]);
            && r.Success?
            && RemoteItem(2, "A", "S0", ["autogen"]) in r.value.itemDeletes
            && RemoteItem(1, "A", "S0", ["autogen"]) !in r.value.itemDeletes
  {
    var info := DeviceInfo([], [], Some([("B", Dimm)]));
    var first := RemoteItem(1, "A", "S0", ["autogen"]);
    var last := RemoteItem(2, "A", "S0", ["autogen"]);
    var items := [first, last];
    assert WellFormed(info);
    ItemPassesFail(info, Host.id, items);
    assert Keys(info.drives) == [];
    ItemIndexSound(items, "A");
    assert InventoryDict(items)["A"] == last;
    ItemDeletes(info, Host.id, items, first);
    ItemDeletes(info, Host.id, items, last);
    assert Keys(info.memory.value) == ["B"];
  }
}

=== FILE: smart.dfy ===
/**
  Drive records from smartctl output (`parse_smart`) and the collection of
  all probes (`get_smart_for_all_drives`). Running smartctl, and the thread
  pool that runs it, are outside the model: a probe arrives as its key and
  either the parsed JSON or `None` when smartctl failed.
 */
module Smart {
  import opened Wrappers
  import opened PyDict
  import opened Facts

  /** The keys of smartctl's JSON the client reads; an absent key is `None`. */
  datatype SmartInfo = SmartInfo(
    deviceName: Option<string>,
    modelName: Option<string>,
    scsiModelName: Option<string>,
    serialNumber: Option<string>,
    capacityBytes: Option<int>,
    powerOnTime: Option<PowerOnTime>)

  /** The model reported when smartctl gives neither model key. */
  const UnknownModel := "Unknown"

  /** `dict.get(key, default)`. */
  function GetOr<T>(o: Option<T>, default: T): T {
    match o
    case Some(v) => v
    case None => default
  }

  /** `parse_smart`: the required keys are read in the order of the dict
      literal, and the first one missing raises `KeyError`. */
  function ParseSmart(s: SmartInfo): (r: Result<Drive>)
    ensures r.Success? <==> s.deviceName.Some? && s.serialNumber.Some? && s.capacityBytes.Some? && s.powerOnTime.Some?
    ensures r.Success? ==> && r.value.name == s.deviceName.value
                           && r.value.serial == s.serialNumber.value
                           && r.value.size == s.capacityBytes.value
                           && r.value.powerOnTime == s.powerOnTime.value
    ensures s.modelName.Some? && r.Success? ==> r.value.model == s.modelName.value
    ensures s.modelName.None? && s.scsiModelName.Some? && r.Success? ==> r.value.model == s.scsiModelName.value
    ensures s.modelName.None? && s.scsiModelName.None? && r.Success? ==> r.value.model == UnknownModel
  {
    if s.deviceName.None? then Failure(KeyError("device"))
    else if s.serialNumber.None? then Failure(KeyError("serial_number"))
    else if s.capacityBytes.None? then Failure(KeyError("user_capacity"))
    else if s.powerOnTime.None? then Failure(KeyError("power_on_time"))
    else
      Success(Drive(
        s.deviceName.value,
        GetOr(s.modelName, GetOr(s.scsiModelName, UnknownModel)),
        s.serialNumber.value,
        s.capacityBytes.value,
        s.powerOnTime.value))
  }

  /** One `get_smart` result: the drive's HCTL and smartctl's JSON, or `None`
      when smartctl exited with an error. */
  datatype Probe = Probe(key: string, smart: Option<SmartInfo>)

  /** The loop of `get_smart_for_all_drives`, continuing from `acc`:
      failed probes are skipped, a later probe with the same key replaces an
      earlier one, and a `KeyError` from `parse_smart` ends the run. */
  function CollectDrives(probes: seq<Probe>, acc: seq<(string, Drive)>): (r: Result<seq<(string, Drive)>>)
    requires Valid(acc)
    ensures r.Success? ==> Valid(r.value)
    decreases |probes|
  {
    if probes == [] then Success(acc)
    else
      var p := probes[0];
      match p.smart
      case None => CollectDrives(probes[1..], acc)
      case Some(s) =>
        match ParseSmart(s)
        case Failure(e) => Failure(e)
        case Success(d) => CollectDrives(probes[1..], Put(acc, p.key, d))
  }

  /** The last probe with key `k` that smartctl answered. */
  function LastAnswered(probes: seq<Probe>, k: string): Option<SmartInfo> {
    if probes == [] then None
    else
      match LastAnswered(probes[1..], k)
      case Some(s) => Some(s)
      case None => if probes[0].key == k then probes[0].smart else None
  }

  /** Collection fails exactly when an answered probe lacks a required key. */
  lemma {:induction false} CollectDrivesFails(probes: seq<Probe>, acc: seq<(string, Drive)>)
    requires Valid(acc)
    ensures CollectDrives(probes, acc).Failure?
            <==> exists p :: p in probes && p.smart.Some? && ParseSmart(p.smart.value).Failure?
  {
    if probes != [] {
      assert probes[0] in probes;
      assert forall p :: p in probes[1..] ==> p in probes;
      assert forall p :: p in probes ==> p == probes[0] || p in probes[1..];
      match probes[0].smart
      case None => CollectDrivesFails(probes[1..], acc);
      case Some(s) =>
        if ParseSmart(s).Success? {
          CollectDrivesFails(probes[1..], Put(acc, probes[0].key, ParseSmart(s).value));
        }
    }
  }

  /** After collection a key maps to the parse of the last answered probe
      with that key; keys of probes smartctl never answered keep what `acc`
      had. */
  lemma {:induction false} CollectDrivesResult(probes: seq<Probe>, acc: seq<(string, Drive)>, k: string)
    requires Valid(acc)
    requires CollectDrives(probes, acc).Success?
    ensures var m := ToMap(CollectDrives(probes, acc).value);
            match LastAnswered(probes, k)
            case Some(s) => ParseSmart(s).Success? && k in m && m[k] == ParseSmart(s).value
            case None => (k in m <==> k in ToMap(acc)) && (k in m ==> m[k] == ToMap(acc)[k])
  {
    if probes != [] {
      match probes[0].smart
      case None => CollectDrivesResult(probes[1..], acc, k);
      case Some(s) =>
        CollectDrivesResult(probes[1..], Put(acc, probes[0].key, ParseSmart(s).value), k);
    }
  }
}

=== FILE: wrappers.dfy ===
/** Failure-carrying datatypes shared by every module of the model. */
module Wrappers {

  /** A value that may be absent; also stands for Python's `None`. */
  datatype Option<+T> = None | Some(value: T)

  /** Either a value or the exception that ended the computation. */
  datatype Result<+R> = Success(value: R) | Failure(error: Error)

  /** The only exception the modelled code can raise: a `dict[key]` or
      `dict.pop(key)` on a missing key. */
  datatype Error = KeyError(key: string)
}
